=== FILE: README.md ===
# dag-gen-rnd in Dafny

A model of the core of dag-gen-rnd, a generator of synthetic DAG tasks for
real-time scheduling research. It covers:

- the two topology generators of the `DAG` class:
  - `gen_rnd`: layered random DAGs;
  - `gen_NFJ`: nested fork-join DAGs.
- the fields `DAG.__init__` sets.
- the task-parameter samplers of `generator.py`:
  - UUniFast and UUniFast-discard;
  - the random choice of periods;
  - the normalised split of a workload over the nodes.
- the stand-alone `uunifast.py` script.
- the conversion `load_task` applies to a stored task graph.
- the driver step that labels every edge with the cost of its tail.

## Modules

| file | module | contents |
|---|---|---|
| `wrappers.dfy` | `Wrappers` | `Result` and `Option`, and the Python exceptions the code can raise. |
| `seqs.dfy` | `Seqs` | Sums, sortedness, `Iota` (`range`), `Flatten`, and sorting a set. |
| `graphs.dfy` | `Graphs` | The DiGraph part the generators use: node set, `rank` attribute, edge set. Also sources, sinks, acyclicity and weak connectivity, and the lemmas that derive the task shape from forward edges. |
| `oracle.dfy` | `Oracle` | `random()` and `randint()`, fed from an explicit list of outcomes. |
| `dag.dfy` | `Dag` | The `DAG` record with its defaults, and the name `Tau_<i>` with its parser. |
| `layered.dfy` | `Layered` | `gen_rnd`. |
| `forkjoin.dfy` | `ForkJoin` | `gen_NFJ`: the fork phase, the ancestor table, the join phase and the final sink. |
| `samplers.dfy` | `Samplers` | `uunifast_discard`, `uunifast`, `gen_period`, `gen_execution_times`. |
| `uunifast_script.dfy` | `UUniFastScript` | `uunifast.py`, written as loops. |
| `loader.dfy` | `Loader` | `load_task`'s conversion and the edge labelling of the driver. |

Randomness is an input, not an effect:

- A run gets an `Rng`. It holds the values `random()` will return and the values `randint()` will return, each in call order.
- A missing value, or one outside the range Python guarantees, ends the run with `BadOracle`.
- UUniFast raises a uniform variate to the power `1/(n-i)`. That factor is an input list of reals in [0, 1].
- Floating-point numbers are modelled as reals.

## Model

| member | source | states |
|---|---|---|
| Dag.NewDag | src/rnddag.py:62-76 | The task number and U, T, W are stored as given, and L is -1. gen_NFJ's defaults are depth 5, p_fork 0.3, p_join 0.8, fork_n_min 2, fork_n_max 4. Parsing the name `Tau_<i>` gives back i. |
| Dag.NameRoundTrip | src/rnddag.py:65 | Parsing the decimal in `Tau_{:d}` gives back the index, negative indices included. |
| Oracle.RandInt | src/rnddag.py:195-200 | randint(lo, hi) is in [lo, hi] and uses one value. It is ValueError exactly when lo > hi. |
| Oracle.Random | src/rnddag.py:218 | random() is in [0, 1) and uses one value. |
| Layered.TryEdge | src/rnddag.py:217-223 | One trial `random() < connect_prob`. On success it adds exactly the edge (parent, child); the child leaves the orphan list and the parent the childless list, each once, as list.remove does. On failure the state is unchanged. Ranks, ids and layers never change. |
| Layered.ConnectParents | src/rnddag.py:216-223 | The trials of one new node against every parent keep the wiring invariant. Nodes, ranks, ids, layers and parents stay the same, and edges are only added. A node placed under a parent stays placed, and a parent with a child stays settled. |
| Layered.ConnectChildren | src/rnddag.py:215-223 | The same over every node of the new layer. |
| Layered.Sweep | src/rnddag.py:228-231 | Every orphan gets an edge from the root, no other edge is added, and the orphan list ends empty. |
| Layered.Layer | src/rnddag.py:198-233 | A layer step keeps the layer invariant and adds one layer of 1 .. parallelism fresh consecutive ids at the next rank. The invariant covers ids, ranks, forward edges, every node placed under a parent or waiting as an orphan, and every parent settled. Earlier layers are unchanged. parallelism < 1 is ValueError. |
| Layered.RunLayers | src/rnddag.py:198-233 | The layer loop runs max(L, 0) times, keeps the layer invariant and only appends layers. |
| Layered.Finish | src/rnddag.py:235-246 | The sink is the next free id. Every node of the last layer and every childless parent gets an edge to it, and every orphan an edge from the root. Earlier edges, ranks and layers are kept. |
| Layered.GenRnd | src/rnddag.py:177-246 | layer_num_min > layer_num_max is ValueError. parallelism < 1 fails once a layer is drawn. |
| Layered.GenRndShape | src/rnddag.py:177-255 | Every generated graph has nodes 1 .. N. Node 1 is the only source and N the only sink. It is acyclic and weakly connected, and every edge climbs to a larger id. Layer k holds consecutive ids at rank k, 1 .. parallelism of them (the root alone at rank 0). The sink is the only node without a rank. The layer count is within the drawn bounds. |
| Layered.GenRndNodeCount | src/rnddag.py:195-207 | With layer_num_min >= 2, the node count lies between layer_num_min and (layer_num_max - 2) * parallelism + 2. |
| ForkJoin.StartFj | src/rnddag.py:269-278 | The starting state meets the fork invariant, and its open list is exactly the nodes without children. |
| ForkJoin.Spawn | src/rnddag.py:289-297 | Forking p into k children adds k fresh consecutive ids at the current rank, each with an edge from p. Each child's chain is p's chain plus p. The children go to the next open list in order. |
| ForkJoin.ForkNode | src/rnddag.py:287-299 | Visiting one open node keeps the fork invariant and moves past that node. The root always forks, into at least fork_n_min children, and fails if fork_n_min > fork_n_max. Either the new ids, in order, are appended to the next open list, or the node does not fork: it is then not the root, it is appended to the next open list itself, and the graph and the next free id are unchanged. |
| ForkJoin.ForkRound | src/rnddag.py:286-299 | One round keeps the fork invariant: forward edges, rank climbing along every edge, and a chain for every node ending in its parent. It also keeps the open list duplicate-free and, for fork_n_min >= 1, equal to the out-degree-0 nodes. If the root is in the round, at least fork_n_min nodes are added. If it is and fork_n_min > fork_n_max, the round fails. |
| ForkJoin.ForkPhase | src/rnddag.py:280-304 | The same over max(depth - 2, 0) rounds. Ids only grow, and zero rounds leave the state unchanged. |
| ForkJoin.AddChain | src/rnddag.py:313-318 | Adding node i under its chain appends i to the entry of every ancestor in the chain and leaves every other entry unchanged. |
| ForkJoin.BuildTable | src/rnddag.py:311-318 | Each entry gains, in open-list order, the open nodes whose chain contains the key. No other key gains an entry. |
| ForkJoin.TableReversesChains | src/rnddag.py:309-318 | The table reverses the ancestor chains. Its keys are the ancestors of open nodes. Each entry lists exactly the open descendants of its key, in order, non-empty and without repeats. |
| ForkJoin.JoinDraws | src/rnddag.py:323-326 | join_list holds only open nodes, without repeats when the open list has none. It uses one random() per open node. It is empty for p_join <= 0 and the whole open list for p_join >= 1. |
| ForkJoin.Merge | src/rnddag.py:339-343 | Every node of the entry gets an edge to the join node and leaves both join_list and the open list. |
| ForkJoin.JoinKey | src/rnddag.py:332-346 | A key adds a join node exactly when all its open descendants are still in join_list. The new node's in-edges then come exactly from them. Otherwise nothing is added. Edges are only added, and only from join_list nodes into the new node, which leave join_list. Afterwards at least one of the key's descendants is out of join_list, and the join invariant still holds. |
| ForkJoin.JoinLoop | src/rnddag.py:331-346 | Over the keys in ascending order, each join_list node is joined at most once, and only join_list nodes are joined. Every join node collects exactly the open descendants of one key. Afterwards no key is left whose descendants are all still eligible. For fork_n_min >= 1, the open list stays exactly the out-degree-0 nodes. |
| ForkJoin.Joins | src/rnddag.py:308-346 | The whole join phase keeps the join invariant and only adds ids. |
| ForkJoin.CloseShape | src/rnddag.py:348-355 | The final graph has nodes 1 .. last id, forward edges with rising rank, and the root as its only parentless node. A sink added because more than one node stayed open collects exactly the open nodes. With fork_n_min >= 1, the last node is the only childless one. |
| ForkJoin.Close | src/rnddag.py:348-355 | With more than one open node, a new node at the (possibly advanced) rank gets an edge from each of them. With at most one, the graph is unchanged. Earlier nodes and edges are kept. |
| ForkJoin.GenNfj | src/rnddag.py:258-358 | With depth >= 3, fork_n_min > fork_n_max makes the root's fork fail. |
| ForkJoin.GenNfjShape | src/rnddag.py:258-358 | Every graph gen_NFJ builds has nodes 1 .. N with rank 0 at the root and the rank climbing along every edge. It is acyclic and weakly connected, with node 1 as the only source. With fork_n_min >= 1, N is its only sink. |
| ForkJoin.GenNfjSize | src/rnddag.py:278-299 | depth <= 2 gives the lone root. Otherwise the root forks, so there are at least 1 + fork_n_min nodes. |
| Samplers.Split | src/generator.py:17-23 | The classic UUniFast loop gives one entry per factor plus the final remainder. SplitSum, SplitRemainders and SplitBounds state its sum and bounds. |
| Samplers.SplitSum | src/generator.py:17-23 | The split telescopes: its entries add up to the utilisation split, for any factors. |
| Samplers.SplitRemainders | src/generator.py:17-23 | Each entry is the drop between two running remainders `sumU`, and the last entry is the final remainder. |
| Samplers.RemaindersShrink | src/generator.py:19-21 | With factors in [0, 1] and u >= 0, the running remainder never increases and stays within [0, u]. |
| Samplers.SplitBounds | src/generator.py:17-23 | With factors in [0, 1] and u >= 0, every entry lies in [0, u]. |
| Samplers.UUniFast | src/generator.py:35-46 | uunifast(n, u) gives max(n, 1) entries summing to u, [u] for n <= 1, non-negative when u >= 0. It fails only when the factors run out or one of the first n-1 lies outside [0, 1]. |
| Samplers.UUniFastDiscard | src/generator.py:9-31 | n <= u gives no vector. Otherwise exactly max(nsets, 0) vectors, each of length n (for n >= 1), summing to u, with no entry above 1, and non-negative when u >= 0. |
| Samplers.Attempts | src/generator.py:15-29 | The rejection loop keeps the vectors found so far, and every vector it adds passes the acceptance test. |
| Samplers.Choice | src/generator.py:54 | random.choice returns a member of the population. An empty population is IndexError. |
| Samplers.GenPeriod | src/generator.py:50-57 | gen_period gives max(n, 0) values, each a member of the population. n > 0 with an empty population is IndexError. |
| Samplers.Uniforms | src/generator.py:64-66 | The draws are the next n random() values, in order. |
| Samplers.Normalise | src/generator.py:72-75 | The dictionary has exactly the keys 0 .. n-1, and key i holds c[i] / f (its value times f is c[i]). Division by zero happens exactly when there is something to divide and the divisor is 0. |
| Samplers.GenExecutionTimes | src/generator.py:61-77 | The keys are exactly 0 .. n-1. w == 0 always fails, and the only errors are ZeroDivision and BadOracle, when the draws run out or one lies outside [0, 1). |
| Samplers.ExecutionTimesFail | src/generator.py:68-75 | gen_execution_times fails exactly when w == 0, or when n >= 1 and every draw is 0. |
| Samplers.ExecutionTimesValues | src/generator.py:64-75 | Each execution time is its draw times w over the sum of the draws. |
| Samplers.ExecutionTimesSum | src/generator.py:68-75 | For n >= 1 the execution times add up to w. For n <= 0 a successful call gives the empty dictionary. |
| Samplers.ExecutionTimesPositive | src/generator.py:64-75 | Positive draws and w > 0 give positive execution times. |
| UUniFastScript.UUniFast | src/uunifast.py:8-25 | vectU is the generator's uunifast result: length n for n >= 1, summing to U, non-negative for U >= 0. AllSum equals the sum of vectU, which is U. |
| UUniFastScript.SplitLoop | src/uunifast.py:9-17 | The imperative loop computes the functional split. |
| UUniFastScript.SumLoop | src/uunifast.py:20-23 | The AllSum loop computes the sum of vectU. |
| Loader.LoadTask | src/utility.py:22-52 | G_dict's keys are the tails plus max_key, and C_dict has the same keys. max_key gets no successors and cost 1. V_array holds exactly the endpoints, C_array has one entry per C_dict key, and T is kept. The lemmas below state the rest. |
| Loader.MaxHead | src/utility.py:27-35 | max_key is at least 0 and at least every head. It is 0 or one of the heads. |
| Loader.ScanEdges | src/utility.py:28-42 | After the edge loop, G_dict has an entry for exactly the tails, each holding its heads in edge order. V_array holds every endpoint once, and C_dict maps every tail to the label of its last out-edge. |
| Loader.NodesSorted | src/utility.py:37-51 | V_array is strictly increasing, duplicate-free and exactly the set of endpoints. |
| Loader.SuccessorsListed | src/utility.py:29-44 | G_dict's keys are the tails plus max_key. G_dict[max_key] is empty, and every other key lists its heads in edge order. |
| Loader.KeysAreNodes | src/utility.py:29-44 | Every G_dict key is in V_array. |
| Loader.CostsAreLastLabels | src/utility.py:42-43 | C_dict's keys are the tails plus max_key. C_dict[max_key] is 1, and every other tail costs the label of its last out-edge. |
| Loader.CostArrayOrdered | src/utility.py:47-52 | C_array has one entry per C_dict key, in ascending key order, and W is its sum. |
| Loader.PositiveCosts | src/utility.py:42-52 | Positive labels give positive costs and a positive W. |
| Loader.NoEdges | src/utility.py:22-59 | With no edges the task is node 0 with no successors and cost 1: V_array is empty, C_array is [1] and W is 1. |
| Loader.LabelEdges | src/daggen-cli.py:97-102 | Every edge (u, v) is kept, in order, and labelled with the cost of its tail u. A tail without a cost is KeyError. |
| Loader.LabelledCostsRoundTrip | src/daggen-cli.py:97-102 | Loading the labelled edges gives back the driver's cost for every tail other than max_key. |

## Left out

- `DAG.save`, `plot`, `__str__`, `print_data`: Graphviz layout, file writing and plotting are I/O.
- `DAGTaskset`: its methods are empty.
- `gen_rnd_legacy` and the root-level `dag_gen` prototypes: they are reached only from the GUIs, which are left out (src/daggen-gui.py:261, daggen.py:26, daggen-gui.py:83).
- The GUIs and the CLI drivers (configuration, directories, logging). From the driver, only the edge labelling is modelled.
- `load_task`'s path building and `nx.read_gpickle` are file I/O. The edge list and the period T are inputs. The order networkx lists edges in is whatever order the input has.
- The order of nodes and edges in a generated graph: networkx keeps insertion order, the model keeps sets. No property here depends on it; the loader takes its edge sequence as an input.
- Graph attributes `Index`, `U`, `T`, `W` and the edge attribute `label="n/a"` that `gen_NFJ` sets: they carry no logic.
- Python's PRNG, the fractional power `**` and float rounding are replaced by oracle values and real arithmetic. `random()` and `randint()` get separate value lists, which keeps the order within each kind of call but not between them.
- The API the tests exercise is not in the code: `ulimit`, `round_c`, `dummy`, `drs_gen`, the 1-based keys of `gen_execution_times`, range-mode periods. uunifast_discard uses a fixed ceiling of 1 and returns `[]` when `n <= u` (src/generator.py:9-31). The model follows the code.
- Samplers.UUniFastDiscard: in Python the rejection loop can run forever. Here it stops with BadOracle when the factors run out, so the count and per-vector guarantees are stated for runs that end.
- Loader.KeysAreNodes: requires some edge with a non-negative head. With every head negative, max_key stays 0, which is not an endpoint. The generators number nodes from 1.
- ForkJoin.GenNfjShape: the unique sink is proved only for fork_n_min >= 1. With fork_n_min <= 0 a fork can leave a node childless while it leaves the open list.
- Layered.GenRndNodeCount: requires layer_num_min >= 2 and parallelism >= 1, the ranges in which the bounds hold.

=== FILE: dag.dfy ===
/** The DAG task object: the fields DAG.__init__ sets, including the
    defaults gen_NFJ reads, and the task name Tau_<index>. */
module Dag {
  import opened Wrappers

  datatype DagTask = DagTask(
    taskNum: int,
    name: string,
    u: real,
    t: real,
    w: real,
    l: int,
    depth: int,
    pFork: real,
    pJoin: real,
    forkNMin: int,
    forkNMax: int)

  /** DAG(i, U, T, W). U, T and W default to the sentinel -1; the critical
      path length L is always -1 until computed. */
  function NewDag(i: int, u: real, t: real, w: real): (d: DagTask)
    ensures TaskIndex(d.name) == Some(i)
    ensures d.taskNum == i && d.u == u && d.t == t && d.w == w && d.l == -1
    ensures d.depth == 5 && d.pFork == 0.3 && d.pJoin == 0.8
    ensures d.forkNMin == 2 && d.forkNMax == 4
  {
    NameRoundTrip(i);
    DagTask(i, TaskName(i), u, t, w, -1, 5, 0.3, 0.8, 2, 4)
  }

  /** DAG() with every argument left at its default. */
  function DefaultDag(): DagTask
  {
    NewDag(0, -1.0, -1.0, -1.0)
  }

  /** 'Tau_{:d}'.format(i). */
  function TaskName(i: int): string
  {
    "Tau_" + Decimal(i)
  }

  function DigitChar(d: int): char
    requires 0 <= d < 10
  {
    ('0' as int + d) as char
  }

  predicate IsDigit(c: char)
  {
    '0' <= c <= '9'
  }

  function DigitValue(c: char): int
    requires IsDigit(c)
  {
    c as int - '0' as int
  }

  /** The decimal digits of a natural number, most significant first, with
      no leading zeros. */
  function NatDecimal(n: nat): (s: string)
    ensures |s| > 0 && forall k :: 0 <= k < |s| ==> IsDigit(s[k])
  {
    if n < 10 then [DigitChar(n)] else NatDecimal(n / 10) + [DigitChar(n % 10)]
  }

  /** '{:d}'.format(i): a minus sign for negative numbers, then the digits. */
  function Decimal(i: int): string
  {
    if i < 0 then "-" + NatDecimal(-i) else NatDecimal(i)
  }

  /** Reads a non-empty string of decimal digits. */
  function ParseNat(s: string): Option<nat>
  {
    if |s| == 0 || !IsDigit(s[|s| - 1]) then None
    else if |s| == 1 then Some(DigitValue(s[0]))
    else
      match ParseNat(s[..|s| - 1])
      case None => None
      case Some(m) => Some(m * 10 + DigitValue(s[|s| - 1]))
  }

  function ParseDecimal(s: string): Option<int>
  {
    if |s| > 0 && s[0] == '-' then
      match ParseNat(s[1..])
      case None => None
      case Some(m) => Some(-(m as int))
    else
      match ParseNat(s)
      case None => None
      case Some(m) => Some(m)
  }

  /** The index a task name Tau_<index> stands for. */
  function TaskIndex(name: string): Option<int>
  {
    if |name| >= 4 && name[..4] == "Tau_" then ParseDecimal(name[4..]) else None
  }

  lemma {:induction false} NatDecimalRoundTrip(n: nat)
    ensures ParseNat(NatDecimal(n)) == Some(n)
  {
    if n >= 10 {
      NatDecimalRoundTrip(n / 10);
      var s := NatDecimal(n);
      assert s[..|s| - 1] == NatDecimal(n / 10);
    }
  }

  lemma DecimalRoundTrip(i: int)
    ensures ParseDecimal(Decimal(i)) == Some(i)
  {
    if i < 0 {
      NatDecimalRoundTrip(-i);
      assert Decimal(i)[1..] == NatDecimal(-i);
    } else {
      NatDecimalRoundTrip(i);
      assert NatDecimal(i)[0] != '-';
    }
  }

  /** The name of a task determines its index, so distinct tasks are saved
      under distinct names. */
  lemma NameRoundTrip(i: int)
    ensures TaskIndex(TaskName(i)) == Some(i)
  {
    DecimalRoundTrip(i);
    assert TaskName(i)[..4] == "Tau_";
    assert TaskName(i)[4..] == Decimal(i);
  }
}

=== FILE: forkjoin.dfy ===
/** DAG.gen_NFJ: the nested fork-join generator. A fork phase lets open
    nodes spawn children for depth-2 rounds; a join phase merges groups of
    open nodes that share an ancestor; a final sink collects what is left. */
module ForkJoin {
  import opened Wrappers
  import opened Seqs
  import opened Graphs
  import opened Oracle
  import opened Dag

  /** The generator's locals during the fork phase: the graph, the next free
      id `n`, the current rank `r`, `nodes_parent` and `ancestor_dict`. */
  datatype FjState = FjState(
    g: Graph,
    next: int,
    r: int,
    open: seq<int>,
    anc: map<int, seq<int>>,
    rng: Rng)

  /** One pass of the fork loop in progress: the state,
      `nodes_parent_next` and `fork_happened`. */
  datatype Round = Round(st: FjState, nextOpen: seq<int>, forked: bool)

  /** The locals during the join phase: `join_list` and `joined_happened`
      join the graph, `n`, `r` and `nodes_parent`. */
  datatype JState = JState(
    g: Graph,
    next: int,
    r: int,
    open: seq<int>,
    joinList: seq<int>,
    joined: bool)

  function Last(s: seq<int>): int
    requires |s| > 0
  {
    s[|s| - 1]
  }

  /** Ranks strictly increase along every edge. */
  ghost predicate RankClimbs(g: Graph)
  {
    forall a, b :: (a, b) in g.edges ==> a in g.rank && b in g.rank && g.rank[a] < g.rank[b]
  }

  /** The graph built so far: nodes 1 .. next-1, all ranked, the root at
      rank 0, forward edges along which the rank climbs, and a parent for
      every node but the root. */
  ghost predicate Grown(g: Graph, next: int)
  {
    && next >= 2
    && NodesBelow(g, next)
    && (forall v :: v in g.rank <==> v in g.nodes)
    && g.rank[1] == 0
    && Forward(g)
    && RankClimbs(g)
    && (forall v :: 1 < v < next ==> HasParent(g, v))
  }

  /** Every ancestor chain is a strictly increasing list of smaller ids that
      starts empty at the root and extends the chain of the node's parent. */
  ghost predicate Chains(anc: map<int, seq<int>>, g: Graph, next: int)
  {
    && 1 in anc && anc[1] == []
    && (forall v :: v in anc ==> 1 <= v < next && StrictlyIncreasing(anc[v]))
    && (forall v, a :: v in anc && a in anc[v] ==> 1 <= a < v)
    && (forall v :: v in anc && v != 1 ==>
          |anc[v]| > 0 && Last(anc[v]) in anc
          && anc[v] == anc[Last(anc[v])] + [Last(anc[v])]
          && (Last(anc[v]), v) in g.edges)
  }

  /** The listed nodes are exactly the nodes of out-degree 0. */
  ghost predicate Leaves(g: Graph, open: seq<int>, next: int)
  {
    forall v :: 1 <= v < next ==> (v in open <==> !HasChild(g, v))
  }

  /** What holds between two rounds of the fork phase. */
  ghost predicate ForkInv(st: FjState)
  {
    && Grown(st.g, st.next)
    && st.r >= 1
    && (forall v :: v in st.g.rank ==> st.g.rank[v] < st.r)
    && Distinct(st.open)
    && (forall v :: v in st.open ==> 1 <= v < st.next && v in st.anc)
    && Chains(st.anc, st.g, st.next)
  }

  /** What holds inside a round that started in st0, before its j-th open
      node is visited. */
  ghost predicate RoundInv(rd: Round, st0: FjState, j: int, fmin: int)
  {
    && 0 <= j <= |st0.open|
    && rd.st.open == st0.open && rd.st.r == st0.r
    && st0.next <= rd.st.next
    && (!rd.forked ==> rd.st.next == st0.next)
    && Grown(rd.st.g, rd.st.next)
    && (forall v :: v in rd.st.g.rank ==>
          rd.st.g.rank[v] <= rd.st.r && (v < st0.next ==> rd.st.g.rank[v] < rd.st.r))
    && Distinct(rd.nextOpen + st0.open[j..])
    && (forall v :: v in rd.nextOpen + st0.open[j..] ==> 1 <= v < rd.st.next && v in rd.st.anc)
    && Chains(rd.st.anc, rd.st.g, rd.st.next)
    && (fmin >= 1 ==> Leaves(rd.st.g, rd.nextOpen + st0.open[j..], rd.st.next))
  }

  /** What forking `count` children of p changes: the ids next .. next+count-1
      become nodes at the current rank with an edge from p, are listed as
      open, and get p's chain followed by p. */
  ghost predicate Spawned(rd: Round, p: int, count: int, out: Round)
  {
    && p in rd.st.anc
    && out.st.next == rd.st.next + Max0(count)
    && out.nextOpen == rd.nextOpen + Iota(rd.st.next, out.st.next)
    && out.forked == (rd.forked || count > 0)
    && out.st.open == rd.st.open && out.st.r == rd.st.r && out.st.rng == rd.st.rng
    && (forall v :: v in out.st.g.nodes <==> v in rd.st.g.nodes || rd.st.next <= v < out.st.next)
    && (forall v :: v in out.st.g.rank <==> v in rd.st.g.rank || rd.st.next <= v < out.st.next)
    && (forall v :: v in out.st.g.rank ==>
          out.st.g.rank[v] == if rd.st.next <= v < out.st.next then rd.st.r else rd.st.g.rank[v])
    && (forall a, b :: (a, b) in out.st.g.edges <==>
          (a, b) in rd.st.g.edges || (a == p && rd.st.next <= b < out.st.next))
    && (forall v :: v in out.st.anc <==> v in rd.st.anc || rd.st.next <= v < out.st.next)
    && (forall v :: v in out.st.anc ==>
          out.st.anc[v] == if rd.st.next <= v < out.st.next then rd.st.anc[p] + [p] else rd.st.anc[v])
  }

  /** The `for i in range(kk)` loop. */
  function Spawn(rd: Round, p: int, count: int): (out: Round)
    requires p in rd.st.anc && p in rd.st.g.nodes && p < rd.st.next
    ensures Spawned(rd, p, count, out)
    decreases count
  {
    if count <= 0 then
      assert Iota(rd.st.next, rd.st.next) == [];
      assert rd.nextOpen + [] == rd.nextOpen;
      rd
    else
      var n := rd.st.next;
      var g := AddEdge(AddNode(rd.st.g, n, rd.st.r), p, n);
      var st := rd.st.(g := g, next := n + 1, anc := rd.st.anc[n := rd.st.anc[p] + [p]]);
      var mid := Round(st, rd.nextOpen + [n], true);
      var out := Spawn(mid, p, count - 1);
      SpawnedCons(rd, p, count, mid, out);
      out
  }

  /** Forking one child n and then count - 1 more is forking count children. */
  lemma SpawnedCons(rd: Round, p: int, count: int, mid: Round, out: Round)
    requires p in rd.st.anc && p in rd.st.g.nodes && p < rd.st.next && count > 0
    requires mid == Round(rd.st.(g := AddEdge(AddNode(rd.st.g, rd.st.next, rd.st.r), p, rd.st.next),
                                 next := rd.st.next + 1,
                                 anc := rd.st.anc[rd.st.next := rd.st.anc[p] + [p]]),
                          rd.nextOpen + [rd.st.next], true)
    requires Spawned(mid, p, count - 1, out)
    ensures Spawned(rd, p, count, out)
  {
    var n := rd.st.next;
    assert Iota(n, out.st.next) == [n] + Iota(n + 1, out.st.next);
    assert out.nextOpen == rd.nextOpen + Iota(n, out.st.next);
  }

  /** An open node that does not fork moves to `nodes_parent_next`. */
  lemma KeepStep(rd: Round, st0: FjState, j: int, fmin: int, rng: Rng)
    requires RoundInv(rd, st0, j, fmin) && j < |st0.open|
    ensures RoundInv(rd.(st := rd.st.(rng := rng), nextOpen := rd.nextOpen + [st0.open[j]]), st0, j + 1, fmin)
  {
    assert (rd.nextOpen + [st0.open[j]]) + st0.open[j + 1..] == rd.nextOpen + st0.open[j..];
  }

  /** Forking p keeps the graph well grown and the ranks in bounds. */
  lemma SpawnGrown(rd1: Round, st0: FjState, p: int, k: int, rd2: Round)
    requires Grown(rd1.st.g, rd1.st.next) && st0.next <= rd1.st.next
    requires forall v :: v in rd1.st.g.rank ==>
               rd1.st.g.rank[v] <= rd1.st.r && (v < st0.next ==> rd1.st.g.rank[v] < rd1.st.r)
    requires p in rd1.st.anc && 1 <= p < st0.next
    requires Spawned(rd1, p, k, rd2)
    ensures Grown(rd2.st.g, rd2.st.next)
    ensures forall v :: v in rd2.st.g.rank ==>
              rd2.st.g.rank[v] <= rd2.st.r && (v < st0.next ==> rd2.st.g.rank[v] < rd2.st.r)
  {
    var g, g2 := rd1.st.g, rd2.st.g;
    var n, n2 := rd1.st.next, rd2.st.next;
    assert p in g.nodes && g.rank[p] < rd1.st.r;
    forall a, b | (a, b) in g2.edges
      ensures a in g2.nodes && b in g2.nodes && a < b
      ensures a in g2.rank && b in g2.rank && g2.rank[a] < g2.rank[b]
    {
      if (a, b) !in g.edges {
        assert a == p && n <= b < n2;
      }
    }
    forall v | 1 < v < n2
      ensures HasParent(g2, v)
    {
      if v >= n {
        assert (p, v) in g2.edges;
      } else {
        assert HasParent(g, v);
        var a :| (a, v) in g.edges;
        assert (a, v) in g2.edges;
      }
    }
  }

  /** Replacing p by its children keeps the open list duplicate-free. */
  lemma SpawnDistinct(before: seq<int>, cur: seq<int>, p: int, rest: seq<int>, n: int, n2: int)
    requires cur == [p] + rest
    requires Distinct(before + cur)
    requires forall v :: v in before + cur ==> v < n
    ensures Distinct(before + Iota(n, n2) + rest)
  {
    var born := Iota(n, n2);
    IotaMembers(n, n2);
    IotaFacts(n, n2);
    DistinctConcat(before, [p] + rest);
    DistinctConcat([p], rest);
    assert forall v :: v in rest ==> v in [p] + rest;
    DistinctConcat(before, rest);
    assert Distinct(born);
    DistinctConcat(before, born);
    assert forall v :: v in rest ==> v in before + ([p] + rest);
    assert forall v :: v in rest ==> v < n;
    assert forall v :: v in before ==> v !in rest;
    assert forall v :: v in before ==> v in before + ([p] + rest);
    assert forall v :: v in before ==> v < n;
    assert forall v :: v in before + born ==> v in before || v in born;
    DistinctConcat(before + born, rest);
  }

  /** The chains of p's children extend the chain of p. */
  lemma SpawnChains(rd1: Round, p: int, k: int, rd2: Round)
    requires Chains(rd1.st.anc, rd1.st.g, rd1.st.next)
    requires p in rd1.st.anc && p in rd1.st.g.nodes && p < rd1.st.next
    requires Spawned(rd1, p, k, rd2)
    ensures Chains(rd2.st.anc, rd2.st.g, rd2.st.next)
  {
    SpawnChainsOrder(rd1, p, k, rd2);
    SpawnChainsLinked(rd1, p, k, rd2);
  }

  lemma SpawnChainsOrder(rd1: Round, p: int, k: int, rd2: Round)
    requires Chains(rd1.st.anc, rd1.st.g, rd1.st.next)
    requires p in rd1.st.anc && p in rd1.st.g.nodes && p < rd1.st.next
    requires Spawned(rd1, p, k, rd2)
    ensures forall v :: v in rd2.st.anc ==> 1 <= v < rd2.st.next && StrictlyIncreasing(rd2.st.anc[v])
    ensures forall v, a :: v in rd2.st.anc && a in rd2.st.anc[v] ==> 1 <= a < v
  {
    var anc, anc2 := rd1.st.anc, rd2.st.anc;
    var n := rd1.st.next;
    assert StrictlyIncreasing(anc[p] + [p]) by {
      IncreasingSnoc(anc[p], p);
    }
    forall v, a | v in anc2 && a in anc2[v]
      ensures 1 <= a < v
    {
      if v >= n {
        assert a in anc[p] || a == p;
      }
    }
  }

  lemma SpawnChainsLinked(rd1: Round, p: int, k: int, rd2: Round)
    requires Chains(rd1.st.anc, rd1.st.g, rd1.st.next)
    requires p in rd1.st.anc && p in rd1.st.g.nodes && p < rd1.st.next
    requires Spawned(rd1, p, k, rd2)
    ensures 1 in rd2.st.anc && rd2.st.anc[1] == []
    ensures forall v :: v in rd2.st.anc && v != 1 ==>
              |rd2.st.anc[v]| > 0 && Last(rd2.st.anc[v]) in rd2.st.anc
              && rd2.st.anc[v] == rd2.st.anc[Last(rd2.st.anc[v])] + [Last(rd2.st.anc[v])]
              && (Last(rd2.st.anc[v]), v) in rd2.st.g.edges
  {
    var anc, anc2 := rd1.st.anc, rd2.st.anc;
    var n := rd1.st.next;
    assert anc2[p] == anc[p];
    forall v | v in anc2 && v != 1
      ensures |anc2[v]| > 0 && Last(anc2[v]) in anc2
      ensures anc2[v] == anc2[Last(anc2[v])] + [Last(anc2[v])]
      ensures (Last(anc2[v]), v) in rd2.st.g.edges
    {
      if v >= n {
        assert Last(anc2[v]) == p;
      } else {
        var q := Last(anc[v]);
        assert q in anc[v];
        assert q < v && anc2[q] == anc[q];
      }
    }
  }

  /** With at least one child, p stops being a leaf and its children are
      the new leaves. */
  lemma SpawnLeaves(rd1: Round, p: int, k: int, rd2: Round, before: seq<int>, cur: seq<int>, rest: seq<int>)
    requires Forward(rd1.st.g) && NodesBelow(rd1.st.g, rd1.st.next)
    requires p in rd1.st.anc && p in rd1.st.g.nodes && p < rd1.st.next
    requires Spawned(rd1, p, k, rd2) && k >= 1
    requires cur == [p] + rest
    requires Leaves(rd1.st.g, before + cur, rd1.st.next)
    requires p !in before && p !in rest
    ensures Leaves(rd2.st.g, before + Iota(rd1.st.next, rd2.st.next) + rest, rd2.st.next)
  {
    var g, g2 := rd1.st.g, rd2.st.g;
    var n, n2 := rd1.st.next, rd2.st.next;
    var old_ := before + ([p] + rest);
    var after := before + Iota(n, n2) + rest;
    IotaMembers(n, n2);
    forall v | 1 <= v < n2
      ensures v in after <==> !HasChild(g2, v)
    {
      if v == p {
        assert (p, n) in g2.edges;
      } else if v < n {
        assert v in after <==> v in old_;
        if HasChild(g2, v) {
          var b :| (v, b) in g2.edges;
          assert (v, b) in g.edges;
        }
        if HasChild(g, v) {
          var b :| (v, b) in g.edges;
          assert (v, b) in g2.edges;
        }
      } else {
        assert v in after && v !in g.nodes;
      }
    }
  }

  /** Replacing p by ids from n .. n2-1 keeps every listed id in range and keyed. */
  lemma SpliceMembers(before: seq<int>, cur: seq<int>, p: int, rest: seq<int>, n: int, n2: int, keys: map<int, seq<int>>, keys2: map<int, seq<int>>)
    requires 1 <= n <= n2 && cur == [p] + rest
    requires forall v :: v in before + cur ==> 1 <= v < n && v in keys
    requires forall v :: v in keys2 <==> v in keys || n <= v < n2
    ensures forall v :: v in before + Iota(n, n2) + rest ==> 1 <= v < n2 && v in keys2
  {
    IotaMembers(n, n2);
    forall v | v in before + Iota(n, n2) + rest
      ensures 1 <= v < n2 && v in keys2
    {
      if v in before || v in rest {
        assert v in before + ([p] + rest);
      }
    }
  }

  /** An open node that forks leaves the open list and its children join it. */
  lemma SpawnStep(rd: Round, st0: FjState, j: int, fmin: int, k: int, rd1: Round, rd2: Round)
    requires ForkInv(st0) && RoundInv(rd, st0, j, fmin) && j < |st0.open|
    requires rd1 == rd.(st := rd.st.(rng := rd1.st.rng))
    requires fmin <= k
    requires Spawned(rd1, st0.open[j], k, rd2)
    ensures RoundInv(rd2, st0, j + 1, fmin)
  {
    var p := st0.open[j];
    var rest := st0.open[j + 1..];
    SuffixCons(st0.open, j);
    var after := rd2.nextOpen + rest;
    assert after == rd.nextOpen + Iota(rd.st.next, rd2.st.next) + rest;
    SpawnGrown(rd1, st0, p, k, rd2);
    SpawnDistinct(rd.nextOpen, st0.open[j..], p, rest, rd.st.next, rd2.st.next);
    assert Distinct(after);
    SpawnChains(rd1, p, k, rd2);
    IotaMembers(rd.st.next, rd2.st.next);
    SpliceMembers(rd.nextOpen, st0.open[j..], p, rest, rd.st.next, rd2.st.next, rd.st.anc, rd2.st.anc);
    DistinctConcat(rd.nextOpen, st0.open[j..]);
    DistinctConcat([p], rest);
    if fmin >= 1 {
      SpawnLeaves(rd1, p, k, rd2, rd.nextOpen, st0.open[j..], rest);
      assert Leaves(rd2.st.g, after, rd2.st.next);
    }
  }

  /** One round of the fork phase: `for node_p in nodes_parent`, visiting
      the open nodes from the j-th on. */
  function ForkRound(rd: Round, j: nat, d: DagTask, ghost st0: FjState): (r: Result<Round>)
    requires ForkInv(st0) && RoundInv(rd, st0, j, d.forkNMin)
    ensures r.Ok? ==> RoundInv(r.value, st0, |st0.open|, d.forkNMin)
    ensures r.Ok? ==> rd.st.next <= r.value.st.next
    ensures r.Ok? && 1 in st0.open[j..] ==> r.value.st.next >= rd.st.next + d.forkNMin
    ensures 1 in st0.open[j..] && d.forkNMin > d.forkNMax ==> r.Err?
    decreases |st0.open| - j
  {
    if j == |rd.st.open| then Ok(rd)
    else
      SuffixCons(st0.open, j);
      var rd1 :- ForkNode(rd, j, d, st0);
      ForkRound(rd1, j + 1, d, st0)
  }

  /** The visit of the j-th open node p. The root always forks; any other
      node forks when `random() < p_fork`, into
      `randint(fork_n_min, fork_n_max)` children; a node that does not fork
      moves to the next open list. */
  function ForkNode(rd: Round, j: nat, d: DagTask, ghost st0: FjState): (r: Result<Round>)
    requires ForkInv(st0) && RoundInv(rd, st0, j, d.forkNMin) && j < |st0.open|
    ensures r.Ok? ==> RoundInv(r.value, st0, j + 1, d.forkNMin)
    ensures r.Ok? ==> rd.st.next <= r.value.st.next
    ensures r.Ok? && st0.open[j] == 1 ==> r.value.st.next >= rd.st.next + d.forkNMin
    ensures st0.open[j] == 1 && d.forkNMin > d.forkNMax ==> r.Err?
    ensures r.Ok? ==>
              r.value.nextOpen == rd.nextOpen + Iota(rd.st.next, r.value.st.next)
              || (r.value.nextOpen == rd.nextOpen + [st0.open[j]] && r.value.st.g == rd.st.g
                  && r.value.st.next == rd.st.next && st0.open[j] != 1)
  {
    var x :- Random(rd.st.rng);
    var p := rd.st.open[j];
    SuffixCons(st0.open, j);
    if x.value < d.pFork || p == 1 then
      var k :- RandInt(d.forkNMin, d.forkNMax, x.rest);
      var rd2 := rd.(st := rd.st.(rng := k.rest));
      var rd3 := Spawn(rd2, p, k.value);
      SpawnStep(rd, st0, j, d.forkNMin, k.value, rd2, rd3);
      Ok(rd3)
    else
      KeepStep(rd, st0, j, d.forkNMin, x.rest);
      Ok(rd.(st := rd.st.(rng := x.rest), nextOpen := rd.nextOpen + [p]))
  }

  lemma RoundStart(st0: FjState, fmin: int)
    requires ForkInv(st0) && (fmin >= 1 ==> Leaves(st0.g, st0.open, st0.next))
    ensures RoundInv(Round(st0, [], false), st0, 0, fmin)
    ensures st0.open[0..] == st0.open
  {
    assert [] + st0.open[0..] == st0.open;
  }

  /** The state after a round: `nodes_parent = nodes_parent_next`, and the
      rank moves on if anything forked. */
  function EndRound(rd: Round): FjState
  {
    rd.st.(open := rd.nextOpen, r := if rd.forked then rd.st.r + 1 else rd.st.r)
  }

  lemma RoundEnd(rd: Round, st0: FjState, fmin: int)
    requires ForkInv(st0) && RoundInv(rd, st0, |st0.open|, fmin)
    ensures ForkInv(EndRound(rd))
    ensures fmin >= 1 ==> Leaves(EndRound(rd).g, EndRound(rd).open, EndRound(rd).next)
  {
    assert rd.nextOpen + st0.open[|st0.open|..] == rd.nextOpen;
  }

  /** The fork phase: `for i in range(layer_num)`. */
  function ForkPhase(st: FjState, i: int, layerNum: int, d: DagTask): (r: Result<FjState>)
    requires ForkInv(st) && (d.forkNMin >= 1 ==> Leaves(st.g, st.open, st.next))
    ensures r.Ok? ==> ForkInv(r.value) && (d.forkNMin >= 1 ==> Leaves(r.value.g, r.value.open, r.value.next))
    ensures r.Ok? ==> st.next <= r.value.next
    ensures r.Ok? && i < layerNum && 1 in st.open ==> r.value.next >= st.next + d.forkNMin
    ensures i < layerNum && 1 in st.open && d.forkNMin > d.forkNMax ==> r.Err?
    ensures i >= layerNum ==> r == Ok(st)
    decreases layerNum - i
  {
    if i >= layerNum then Ok(st)
    else
      RoundStart(st, d.forkNMin);
      var rd :- ForkRound(Round(st, [], false), 0, d, st);
      RoundEnd(rd, st, d.forkNMin);
      ForkPhase(EndRound(rd), i + 1, layerNum, d)
  }

  /** `table.get(j)`, reading a missing key as the empty list. */
  function Get(t: map<int, seq<int>>, j: int): seq<int>
  {
    if j in t then t[j] else []
  }

  /** The listed nodes whose ancestor chain contains j, in list order. */
  function Holders(open: seq<int>, anc: map<int, seq<int>>, j: int): (h: seq<int>)
    requires forall v :: v in open ==> v in anc
  {
    if |open| == 0 then []
    else
      var o := open[0];
      assert o in open;
      (if j in anc[o] then [o] else []) + Holders(open[1..], anc, j)
  }

  /** Holders picks out exactly the nodes whose chain contains j, and a
      duplicate-free list gives a duplicate-free selection. */
  lemma {:induction false} HoldersFacts(open: seq<int>, anc: map<int, seq<int>>, j: int)
    requires forall v :: v in open ==> v in anc
    ensures forall i :: i in Holders(open, anc, j) <==> i in open && j in anc[i]
    ensures Distinct(open) ==> Distinct(Holders(open, anc, j))
    decreases |open|
  {
    if |open| > 0 {
      var o := open[0];
      assert o in open;
      var head := if j in anc[o] then [o] else [];
      HoldersFacts(open[1..], anc, j);
      assert forall i :: i in open <==> i == open[0] || i in open[1..];
      if Distinct(open) {
        DistinctConcat([open[0]], open[1..]);
        assert open == [open[0]] + open[1..];
        DistinctConcat(head, Holders(open[1..], anc, j));
      }
    }
  }

  /** `for j in ancestor_dict[i]`: appends i to the entry of every ancestor j. */
  function AddChain(t: map<int, seq<int>>, i: int, chain: seq<int>): (u: map<int, seq<int>>)
    requires Distinct(chain)
    ensures forall j :: j in u <==> j in t || j in chain
    ensures forall j :: Get(u, j) == Get(t, j) + (if j in chain then [i] else [])
    decreases |chain|
  {
    if |chain| == 0 then t
    else
      var c := chain[0];
      assert forall j :: j in chain <==> j == c || j in chain[1..];
      assert c !in chain[1..];
      AddChain(t[c := Get(t, c) + [i]], i, chain[1..])
  }

  lemma Regroup(u: seq<int>, t1: seq<int>, t: seq<int>, head: seq<int>, rest: seq<int>)
    requires u == t1 + rest && t1 == t + head
    ensures u == t + (head + rest)
  {
  }

  /** `for i in nodes_parent`: the table that reverses the ancestor chains. */
  function BuildTable(t: map<int, seq<int>>, open: seq<int>, anc: map<int, seq<int>>): (u: map<int, seq<int>>)
    requires forall v :: v in open ==> v in anc && StrictlyIncreasing(anc[v])
    ensures forall j :: j in u <==> j in t || |Holders(open, anc, j)| > 0
    ensures forall j :: Get(u, j) == Get(t, j) + Holders(open, anc, j)
    decreases |open|
  {
    if |open| == 0 then t
    else
      var o := open[0];
      assert o in open;
      assert Distinct(anc[o]) by {
        assert StrictlyIncreasing(anc[o]);
      }
      var t1 := AddChain(t, o, anc[o]);
      var u := BuildTable(t1, open[1..], anc);
      assert forall j :: Get(u, j) == Get(t, j) + Holders(open, anc, j) by {
        forall j
          ensures Get(u, j) == Get(t, j) + Holders(open, anc, j)
        {
          var head := if j in anc[o] then [o] else [];
          var h1 := Holders(open[1..], anc, j);
          assert Holders(open, anc, j) == head + h1;
          Regroup(Get(u, j), Get(t1, j), Get(t, j), head, h1);
        }
      }
      u
  }

  /** The join table: under every ancestor, the open nodes descending from it. */
  function Table(open: seq<int>, anc: map<int, seq<int>>): map<int, seq<int>>
    requires forall v :: v in open ==> v in anc && StrictlyIncreasing(anc[v])
  {
    BuildTable(map[], open, anc)
  }

  /** The table is the reverse of the ancestor chains: its keys are the
      ancestors of open nodes, and under each key it lists, in open-list
      order and without repeats, exactly the open nodes descending from it. */
  lemma TableReversesChains(open: seq<int>, anc: map<int, seq<int>>)
    requires forall v :: v in open ==> v in anc && StrictlyIncreasing(anc[v])
    requires Distinct(open)
    ensures forall j :: j in Table(open, anc) <==> exists i :: i in open && j in anc[i]
    ensures forall j :: j in Table(open, anc) ==> Table(open, anc)[j] == Holders(open, anc, j)
    ensures forall j, i :: j in Table(open, anc) ==> (i in Table(open, anc)[j] <==> i in open && j in anc[i])
    ensures forall j :: j in Table(open, anc) ==> |Table(open, anc)[j]| > 0 && Distinct(Table(open, anc)[j])
  {
    forall j
      ensures j in Table(open, anc) <==> exists i :: i in open && j in anc[i]
      ensures j in Table(open, anc) ==> Table(open, anc)[j] == Holders(open, anc, j)
      ensures forall i :: j in Table(open, anc) ==> (i in Table(open, anc)[j] <==> i in open && j in anc[i])
      ensures j in Table(open, anc) ==> |Table(open, anc)[j]| > 0 && Distinct(Table(open, anc)[j])
    {
      TableEntry(open, anc, j);
    }
  }

  lemma TableEntry(open: seq<int>, anc: map<int, seq<int>>, j: int)
    requires forall v :: v in open ==> v in anc && StrictlyIncreasing(anc[v])
    requires Distinct(open)
    ensures j in Table(open, anc) <==> exists i :: i in open && j in anc[i]
    ensures j in Table(open, anc) ==> Table(open, anc)[j] == Holders(open, anc, j)
    ensures forall i :: j in Table(open, anc) ==> (i in Table(open, anc)[j] <==> i in open && j in anc[i])
    ensures j in Table(open, anc) ==> |Table(open, anc)[j]| > 0 && Distinct(Table(open, anc)[j])
  {
    var t := Table(open, anc);
    var h := Holders(open, anc, j);
    assert Get(t, j) == h && (j in t <==> |h| > 0);
    HolderSelection(open, anc, j, h);
  }

  lemma HolderSelection(open: seq<int>, anc: map<int, seq<int>>, j: int, h: seq<int>)
    requires forall v :: v in open ==> v in anc
    requires Distinct(open) && h == Holders(open, anc, j)
    ensures |h| > 0 <==> exists i :: i in open && j in anc[i]
    ensures forall i :: i in h <==> i in open && j in anc[i]
    ensures Distinct(h)
  {
    HoldersFacts(open, anc, j);
    if exists i :: i in open && j in anc[i] {
      var i :| i in open && j in anc[i];
      assert i in h;
    }
    if |h| > 0 {
      assert h[0] in h;
    }
  }

  /** `for node_p in nodes_parent: if random() < p_join`: one draw per open
      node, keeping the winners in list order. */
  function JoinDraws(open: seq<int>, rng: Rng, p: real): (r: Result<Draw<seq<int>>>)
    ensures r.Ok? ==> forall c :: c in r.value.value ==> c in open
    ensures r.Ok? && Distinct(open) ==> Distinct(r.value.value)
    ensures r.Ok? ==> |r.value.rest.reals| == |rng.reals| - |open|
    ensures r.Ok? && p <= 0.0 ==> r.value.value == []
    ensures r.Ok? && p >= 1.0 ==> r.value.value == open
    decreases |open|
  {
    if |open| == 0 then Ok(Draw([], rng))
    else
      var x :- Random(rng);
      var rest :- JoinDraws(open[1..], x.rest, p);
      var head := if x.value < p then [open[0]] else [];
      assert forall c :: c in open[1..] ==> c in open;
      assert Distinct(open) ==> Distinct(head + rest.value) by {
        if Distinct(open) {
          DistinctConcat([open[0]], open[1..]);
          assert open == [open[0]] + open[1..];
          DistinctConcat(head, rest.value);
        }
      }
      assert p >= 1.0 ==> head + rest.value == [open[0]] + open[1..];
      Ok(Draw(head + rest.value, rest.rest))
  }

  /** What holds throughout the join phase, which starts with next id next0. */
  ghost predicate JoinInv(js: JState, table: map<int, seq<int>>, next0: int, fmin: int)
  {
    && 2 <= next0 <= js.next
    && Grown(js.g, js.next)
    && (forall v :: v in js.g.rank ==> js.g.rank[v] <= js.r && (v < next0 ==> js.g.rank[v] < js.r))
    && (!js.joined ==> js.next == next0)
    && Distinct(js.open) && Distinct(js.joinList)
    && (forall c :: c in js.open ==> 1 <= c < js.next)
    && (forall c :: c in js.joinList ==> c in js.open && c < next0)
    && (forall k :: k in table ==> |table[k]| > 0 && Distinct(table[k]))
    && (forall k, c :: k in table && c in table[k] ==> 1 <= c < next0)
    && (fmin >= 1 ==> Leaves(js.g, js.open, js.next))
  }

  /** What merging the nodes vs into the join node n changes. */
  ghost predicate Merged(js: JState, vs: seq<int>, n: int, out: JState)
  {
    && out.next == js.next && out.r == js.r && out.g.nodes == js.g.nodes && out.g.rank == js.g.rank
    && (forall a, b :: (a, b) in out.g.edges <==> (a, b) in js.g.edges || (a in vs && b == n))
    && (forall c :: c in out.joinList <==> c in js.joinList && c !in vs)
    && (forall c :: c in out.open <==> c in js.open && c !in vs)
    && Distinct(out.joinList) && Distinct(out.open)
    && out.joined == (js.joined || |vs| > 0)
  }

  /** `for cc in v`: an edge from cc to the join node n; cc leaves both
      `join_list` and `nodes_parent`. */
  function Merge(js: JState, v: seq<int>, i: nat, n: int): (out: JState)
    requires i <= |v| && Distinct(v) && Distinct(js.joinList) && Distinct(js.open)
    requires forall k :: i <= k < |v| ==> v[k] in js.joinList && v[k] in js.open && v[k] in js.g.nodes
    requires n in js.g.nodes
    ensures Merged(js, v[i..], n, out)
    decreases |v| - i
  {
    if i == |v| then js
    else
      var cc := v[i];
      var js1 := js.(g := AddEdge(js.g, cc, n),
                     joinList := RemoveFirst(js.joinList, cc),
                     open := RemoveFirst(js.open, cc),
                     joined := true);
      assert forall c :: c in v[i..] <==> c == cc || c in v[i + 1..];
      assert forall k :: i < k < |v| ==> v[k] != cc;
      Merge(js1, v, i + 1, n)
  }

  /** True when every node the table lists under a key is still in
      `join_list`: `set(v).issubset(set(join_list))`. */
  predicate Eligible(v: seq<int>, joinList: seq<int>)
  {
    forall c :: c in v ==> c in joinList
  }

  /** The join that fires for v: a new node at the current rank becomes
      open, and every node of v gets an edge to it and stops being open. */
  lemma JoinFires(js: JState, v: seq<int>, table: map<int, seq<int>>, key: int, next0: int, fmin: int, m: JState, out: JState)
    requires JoinInv(js, table, next0, fmin) && key in table && v == table[key]
    requires Eligible(v, js.joinList)
    requires Merged(js.(g := AddNode(js.g, js.next, js.r), open := js.open + [js.next]), v, js.next, m)
    requires out == m.(next := js.next + 1)
    ensures JoinInv(out, table, next0, fmin)
  {
    var n := js.next;
    var g := js.g;
    var g2 := out.g;
    assert |v| > 0;
    assert n !in v;
    JoinFiresGrown(js, v, next0, g2);
    forall c | c in out.open
      ensures 1 <= c < n + 1
    {
      assert c in js.open + [n];
    }
    forall c | c in out.joinList
      ensures c in out.open && c < next0
    {
      assert c in js.open + [n];
    }
    if fmin >= 1 {
      JoinFiresLeaves(js, v, g2, out.open);
    }
  }

  lemma JoinFiresGrown(js: JState, v: seq<int>, next0: int, g2: Graph)
    requires Grown(js.g, js.next) && 2 <= next0 <= js.next && |v| > 0
    requires forall v :: v in js.g.rank ==> js.g.rank[v] <= js.r && (v < next0 ==> js.g.rank[v] < js.r)
    requires forall c :: c in v ==> 1 <= c < next0
    requires g2.nodes == js.g.nodes + {js.next} && g2.rank == js.g.rank[js.next := js.r]
    requires forall a, b :: (a, b) in g2.edges <==> (a, b) in js.g.edges || (a in v && b == js.next)
    ensures Grown(g2, js.next + 1)
    ensures forall x :: x in g2.rank ==> g2.rank[x] <= js.r && (x < next0 ==> g2.rank[x] < js.r)
  {
    var n := js.next;
    var g := js.g;
    var first := v[0];
    assert first in v;
    assert (first, n) in g2.edges;
    forall a, b | (a, b) in g2.edges
      ensures a in g2.nodes && b in g2.nodes && a < b
      ensures a in g2.rank && b in g2.rank && g2.rank[a] < g2.rank[b]
    {
      if (a, b) !in g.edges {
        assert a in v && b == n;
      }
    }
    forall x | 1 < x < n + 1
      ensures HasParent(g2, x)
    {
      if x < n {
        assert HasParent(g, x);
        var a :| (a, x) in g.edges;
        assert (a, x) in g2.edges;
      }
    }
  }

  lemma JoinFiresLeaves(js: JState, v: seq<int>, g2: Graph, open2: seq<int>)
    requires Forward(js.g) && NodesBelow(js.g, js.next)
    requires Leaves(js.g, js.open, js.next)
    requires js.next !in v
    requires forall a, b :: (a, b) in g2.edges <==> (a, b) in js.g.edges || (a in v && b == js.next)
    requires forall c :: c in open2 <==> c in js.open + [js.next] && c !in v
    ensures Leaves(g2, open2, js.next + 1)
  {
    var n := js.next;
    var g := js.g;
    forall x | 1 <= x < n + 1
      ensures x in open2 <==> !HasChild(g2, x)
    {
      if x == n {
        assert n in js.open + [n];
        assert n !in g.nodes;
      } else if x in v {
        assert (x, n) in g2.edges;
      } else {
        assert x in open2 <==> x in js.open;
        if HasChild(g2, x) {
          var b :| (x, b) in g2.edges;
          assert (x, b) in g.edges;
        }
        if HasChild(g, x) {
          var b :| (x, b) in g.edges;
          assert (x, b) in g2.edges;
        }
      }
    }
  }

  /** One key of `sorted(table.keys())`. */
  function JoinKey(js: JState, v: seq<int>, ghost table: map<int, seq<int>>, ghost key: int, ghost next0: int, ghost fmin: int): (out: JState)
    requires JoinInv(js, table, next0, fmin) && key in table && v == table[key]
    ensures JoinInv(out, table, next0, fmin)
    ensures out.r == js.r && out.next == (if Eligible(v, js.joinList) then js.next + 1 else js.next)
    ensures Eligible(v, js.joinList) ==> InEdgesAre(out.g, js.next, v)
    ensures forall a, b :: (a, b) in js.g.edges ==> (a, b) in out.g.edges
    ensures forall a, b :: (a, b) in out.g.edges && (a, b) !in js.g.edges ==>
              b == js.next && b < out.next && a in js.joinList && a !in out.joinList
    ensures forall c :: c in out.joinList ==> c in js.joinList
    ensures exists c :: c in v && c !in out.joinList
  {
    if Eligible(v, js.joinList) then
      var n := js.next;
      var js1 := js.(g := AddNode(js.g, n, js.r), open := js.open + [n]);
      assert forall c :: c in js.open + [n] <==> c in js.open || c == n;
      DistinctConcat(js.open, [n]);
      assert forall k :: 0 <= k < |v| ==> v[k] in v;
      forall k | 0 <= k < |v|
        ensures v[k] in js.joinList && v[k] in js1.open && v[k] in js1.g.nodes
      {
        var c := v[k];
        assert c in v && c in table[key];
        assert c in js.joinList && c in js.open;
        assert 1 <= c < next0;
      }
      var m := Merge(js1, v, 0, n);
      assert v[0..] == v;
      var out := m.(next := n + 1);
      JoinFires(js, v, table, key, next0, fmin, m, out);
      assert v[0..] == v && v[0] in v;
      assert forall c :: (c, n) in js.g.edges ==> false;
      out
    else
      js
  }

  /** Every edge added between g0 and g1 leaves a node of the join list jl0
      that is no longer in jl1, and enters a join node numbered lo .. hi-1. */
  ghost predicate JoinEdges(g0: Graph, g1: Graph, lo: int, hi: int, jl0: seq<int>, jl1: seq<int>)
  {
    forall a, b :: (a, b) in g1.edges && (a, b) !in g0.edges ==> lo <= b < hi && a in jl0 && a !in jl1
  }

  /** No node gains two new out-edges: each open node is joined at most once. */
  ghost predicate JoinedOnce(g0: Graph, g1: Graph)
  {
    forall a, b1, b2 ::
      ((a, b1) in g1.edges && (a, b1) !in g0.edges && (a, b2) in g1.edges && (a, b2) !in g0.edges)
      ==> b1 == b2
  }

  /** The in-neighbours of b are exactly the nodes of v. */
  ghost predicate InEdgesAre(g: Graph, b: int, v: seq<int>)
  {
    forall c :: (c, b) in g.edges <==> c in v
  }

  /** b collects exactly the table entry of one of the keys from the t-th on. */
  ghost predicate JoinNodeOf(g: Graph, b: int, keys: seq<int>, t: int, table: map<int, seq<int>>)
  {
    exists k :: 0 <= k < |keys| && t <= k && keys[k] in table && InEdgesAre(g, b, table[keys[k]])
  }

  ghost predicate JoinNodes(g: Graph, lo: int, hi: int, keys: seq<int>, t: int, table: map<int, seq<int>>)
  {
    forall b :: lo <= b < hi ==> JoinNodeOf(g, b, keys, t, table)
  }

  /** No key from the t-th on still has all its nodes in the join list. */
  ghost predicate Exhausted(jl: seq<int>, keys: seq<int>, t: int, table: map<int, seq<int>>)
  {
    forall k :: 0 <= k < |keys| && t <= k && keys[k] in table ==> exists c :: c in table[keys[k]] && c !in jl
  }

  /** The join loop `for i in sorted(table.keys())` from the t-th key on.
      Only nodes of `join_list` are joined, each at most once, into fresh
      join nodes; each join node collects exactly the open descendants of one
      ancestor; and afterwards no key is left whose nodes are all still
      eligible. */
  function JoinLoop(js: JState, keys: seq<int>, t: nat, table: map<int, seq<int>>, ghost next0: int, ghost fmin: int): (out: JState)
    requires t <= |keys| && forall k :: 0 <= k < |keys| ==> keys[k] in table
    requires JoinInv(js, table, next0, fmin)
    ensures JoinInv(out, table, next0, fmin)
    ensures out.r == js.r && js.next <= out.next
    ensures forall a, b :: (a, b) in js.g.edges ==> (a, b) in out.g.edges
    ensures forall c :: c in out.joinList ==> c in js.joinList
    ensures JoinEdges(js.g, out.g, js.next, out.next, js.joinList, out.joinList)
    ensures JoinedOnce(js.g, out.g)
    ensures JoinNodes(out.g, js.next, out.next, keys, t, table)
    ensures Exhausted(out.joinList, keys, t, table)
    ensures t == |keys| ==> out == js
    decreases |keys| - t
  {
    if t == |keys| then js
    else
      var v := table[keys[t]];
      var js1 := JoinKey(js, v, table, keys[t], next0, fmin);
      var out := JoinLoop(js1, keys, t + 1, table, next0, fmin);
      JoinLoopStep(js, js1, out, v, keys, t, table);
      out
  }

  lemma JoinLoopStep(js: JState, js1: JState, out: JState, v: seq<int>, keys: seq<int>, t: nat, table: map<int, seq<int>>)
    requires t < |keys| && keys[t] in table && v == table[keys[t]]
    requires js1.next == (if Eligible(v, js.joinList) then js.next + 1 else js.next)
    requires Eligible(v, js.joinList) ==> InEdgesAre(js1.g, js.next, v)
    requires forall a, b :: (a, b) in js1.g.edges && (a, b) !in js.g.edges ==>
               b == js.next && b < js1.next && a in js.joinList && a !in js1.joinList
    requires forall c :: c in js1.joinList ==> c in js.joinList
    requires exists c :: c in v && c !in js1.joinList
    requires forall a, b :: (a, b) in js.g.edges ==> (a, b) in js1.g.edges
    requires forall a, b :: (a, b) in js1.g.edges ==> (a, b) in out.g.edges
    requires js1.next <= out.next
    requires forall c :: c in out.joinList ==> c in js1.joinList
    requires JoinEdges(js1.g, out.g, js1.next, out.next, js1.joinList, out.joinList)
    requires JoinedOnce(js1.g, out.g)
    requires JoinNodes(out.g, js1.next, out.next, keys, t + 1, table)
    requires Exhausted(out.joinList, keys, t + 1, table)
    ensures JoinEdges(js.g, out.g, js.next, out.next, js.joinList, out.joinList)
    ensures JoinedOnce(js.g, out.g)
    ensures JoinNodes(out.g, js.next, out.next, keys, t, table)
    ensures Exhausted(out.joinList, keys, t, table)
  {
    forall a, b1, b2 |
      (a, b1) in out.g.edges && (a, b1) !in js.g.edges && (a, b2) in out.g.edges && (a, b2) !in js.g.edges
      ensures b1 == b2
    {
      if (a, b1) in js1.g.edges && (a, b2) !in js1.g.edges {
        assert false;
      } else if (a, b1) !in js1.g.edges && (a, b2) in js1.g.edges {
        assert false;
      }
    }
    forall b | js.next <= b < out.next
      ensures JoinNodeOf(out.g, b, keys, t, table)
    {
      if b < js1.next {
        assert b == js.next && Eligible(v, js.joinList);
        forall c
          ensures (c, b) in out.g.edges <==> c in v
        {
          if (c, b) in out.g.edges && (c, b) !in js1.g.edges {
            assert false;
          }
        }
        assert InEdgesAre(out.g, b, table[keys[t]]);
      } else {
        assert JoinNodeOf(out.g, b, keys, t + 1, table);
      }
    }
    forall k | t <= k < |keys| && keys[k] in table
      ensures exists c :: c in table[keys[k]] && c !in out.joinList
    {
      if k == t {
        var c :| c in v && c !in js1.joinList;
        assert c !in out.joinList;
      }
    }
  }

  /** The root 1 at rank 0, the only open node, with an empty chain; the
      next id is 2 and the current rank 1. */
  function StartFj(rng: Rng): (st: FjState)
    ensures ForkInv(st) && Leaves(st.g, st.open, st.next)
  {
    var st := FjState(AddNode(EmptyGraph, 1, 0), 2, 1, [1], map[1 := []], rng);
    assert !HasChild(st.g, 1);
    st
  }

  /** `layer_num = max(self.depth - 2, 0)`. */
  function LayerNum(depth: int): int
  {
    Max0(depth - 2)
  }

  /** The join phase starts from the fork phase's open list, the table built
      from it, and a join list drawn from it. */
  lemma JoinStart(st: FjState, fmin: int, jl: seq<int>)
    requires ForkInv(st) && (fmin >= 1 ==> Leaves(st.g, st.open, st.next))
    requires (forall c :: c in jl ==> c in st.open) && Distinct(jl)
    ensures forall v :: v in st.open ==> v in st.anc && StrictlyIncreasing(st.anc[v])
    ensures JoinInv(JState(st.g, st.next, st.r, st.open, jl, false), Table(st.open, st.anc), st.next, fmin)
  {
    TableBounds(st.open, st.anc, st.next);
  }

  lemma TableBounds(open: seq<int>, anc: map<int, seq<int>>, next: int)
    requires forall v :: v in open ==> v in anc && StrictlyIncreasing(anc[v])
    requires Distinct(open) && forall v :: v in open ==> 1 <= v < next
    ensures forall k :: k in Table(open, anc) ==> |Table(open, anc)[k]| > 0 && Distinct(Table(open, anc)[k])
    ensures forall k, c :: k in Table(open, anc) && c in Table(open, anc)[k] ==> 1 <= c < next
  {
    var t := Table(open, anc);
    forall k | k in t
      ensures |t[k]| > 0 && Distinct(t[k]) && forall c :: c in t[k] ==> 1 <= c < next
    {
      TableEntry(open, anc, k);
    }
  }

  /** The last step: the rank moves on if anything joined, and when more
      than one node is still open a sink at that rank collects them all. */
  function Close(js: JState): (g: Graph)
    ensures forall a, b :: (a, b) in js.g.edges ==> (a, b) in g.edges
    ensures js.g.nodes <= g.nodes
    ensures |js.open| > 1 ==>
              && js.next in g.nodes && js.next in g.rank
              && g.rank[js.next] == (if js.joined then js.r + 1 else js.r)
              && forall v :: v in js.open ==> (v, js.next) in g.edges
    ensures |js.open| <= 1 ==> g == js.g
  {
    var r := if js.joined then js.r + 1 else js.r;
    if |js.open| > 1 then EdgesTo(AddNode(js.g, js.next, r), js.open, js.next) else js.g
  }

  /** The id of the last node: the new sink, or the last node created. */
  function LastId(js: JState): int
  {
    if |js.open| > 1 then js.next else js.next - 1
  }

  /** The finished graph has nodes 1 .. LastId, forward edges along which
      the rank climbs, and the root as its only parentless node. When every
      fork has at least one child, the last node is the only childless one,
      and a sink that was added collects exactly the open nodes. */
  lemma CloseShape(js: JState, table: map<int, seq<int>>, next0: int, fmin: int)
    requires JoinInv(js, table, next0, fmin)
    ensures NodesBelow(Close(js), LastId(js) + 1)
    ensures Forward(Close(js)) && Rooted(Close(js), 1)
    ensures RankClimbs(Close(js)) && (forall v :: v in Close(js).rank <==> v in Close(js).nodes)
    ensures Close(js).rank[1] == 0
    ensures |js.open| > 1 ==> forall c :: (c, LastId(js)) in Close(js).edges <==> c in js.open
    ensures fmin >= 1 ==> Ended(Close(js), LastId(js))
  {
    var g := Close(js);
    var n := js.next;
    var r := if js.joined then js.r + 1 else js.r;
    if |js.open| > 1 {
      assert js.open[0] in js.open;
      forall a, b | (a, b) in g.edges
        ensures a in g.nodes && b in g.nodes && a < b
        ensures a in g.rank && b in g.rank && g.rank[a] < g.rank[b]
      {
        if (a, b) !in js.g.edges {
          assert a in js.open && b == n;
          assert js.g.rank[a] <= js.r;
          if !js.joined {
            assert a < next0;
          }
        }
      }
      forall v | v in g.nodes && v != 1
        ensures HasParent(g, v)
      {
        if v == n {
          assert (js.open[0], n) in g.edges;
        } else {
          assert HasParent(js.g, v);
          var a :| (a, v) in js.g.edges;
          assert (a, v) in g.edges;
        }
      }
      if fmin >= 1 {
        forall v | v in g.nodes && v != n
          ensures HasChild(g, v)
        {
          if v in js.open {
            assert (v, n) in g.edges;
          } else {
            assert HasChild(js.g, v);
            var b :| (v, b) in js.g.edges;
            assert (v, b) in g.edges;
          }
        }
      }
    } else {
      forall v | v in g.nodes && v != 1
        ensures HasParent(g, v)
      {
        assert HasParent(js.g, v);
      }
      if fmin >= 1 {
        assert !HasChild(js.g, n - 1) by {
          assert forall b :: (n - 1, b) in js.g.edges ==> b in js.g.nodes && n - 1 < b;
        }
        assert n - 1 in js.open;
        forall v | v in g.nodes && v != n - 1
          ensures HasChild(g, v)
        {
          if v in js.open {
            assert false;
          }
        }
      }
    }
  }

  /** DAG.gen_NFJ. */
  function GenNfj(d: DagTask, rng: Rng): (r: Result<Graph>)
    ensures d.depth >= 3 && d.forkNMin > d.forkNMax ==> r.Err?
  {
    var st1 :- ForkPhase(StartFj(rng), 0, LayerNum(d.depth), d);
    JoinPhase(st1, d)
  }

  /** The join phase and the final sink. */
  function JoinPhase(st1: FjState, d: DagTask): (r: Result<Graph>)
    requires ForkInv(st1) && (d.forkNMin >= 1 ==> Leaves(st1.g, st1.open, st1.next))
  {
    var jl :- JoinDraws(st1.open, st1.rng, d.pJoin);
    Ok(Close(Joins(st1, jl.value, d.forkNMin)))
  }

  /** The table, then the joins over its keys in ascending order. */
  function Joins(st1: FjState, jl: seq<int>, ghost fmin: int): (js: JState)
    requires ForkInv(st1) && (fmin >= 1 ==> Leaves(st1.g, st1.open, st1.next))
    requires (forall c :: c in jl ==> c in st1.open) && Distinct(jl)
    ensures forall v :: v in st1.open ==> v in st1.anc && StrictlyIncreasing(st1.anc[v])
    ensures JoinInv(js, Table(st1.open, st1.anc), st1.next, fmin) && st1.next <= js.next
  {
    JoinStart(st1, fmin, jl);
    var table := Table(st1.open, st1.anc);
    var keys := SortedSet(table.Keys);
    var js0 := JState(st1.g, st1.next, st1.r, st1.open, jl, false);
    assert JoinInv(js0, table, st1.next, fmin);
    assert forall k :: 0 <= k < |keys| ==> keys[k] in table by {
      forall k | 0 <= k < |keys|
        ensures keys[k] in table
      {
        assert keys[k] in keys;
      }
    }
    JoinLoop(js0, keys, 0, table, st1.next, fmin)
  }

  /** Unfolds a successful run into its fork-phase result and its final
      join state. */
  lemma GenNfjRun(d: DagTask, rng: Rng, g: Graph) returns (st1: FjState, js: JState, table: map<int, seq<int>>)
    requires GenNfj(d, rng) == Ok(g)
    ensures ForkPhase(StartFj(rng), 0, LayerNum(d.depth), d) == Ok(st1)
    ensures JoinInv(js, table, st1.next, d.forkNMin) && g == Close(js) && st1.next <= js.next
    ensures LayerNum(d.depth) == 0 ==> js.open == [1] && js.g == StartFj(rng).g
  {
    st1 := ForkPhase(StartFj(rng), 0, LayerNum(d.depth), d).value;
    js, table := JoinPhaseRun(st1, d, g);
  }

  lemma JoinPhaseRun(st1: FjState, d: DagTask, g: Graph) returns (js: JState, table: map<int, seq<int>>)
    requires ForkInv(st1) && (d.forkNMin >= 1 ==> Leaves(st1.g, st1.open, st1.next))
    requires JoinPhase(st1, d) == Ok(g)
    ensures JoinInv(js, table, st1.next, d.forkNMin) && g == Close(js) && st1.next <= js.next
    ensures st1.open == [1] && st1.anc[1] == [] ==> js.open == [1] && js.g == st1.g
  {
    var jl := JoinDraws(st1.open, st1.rng, d.pJoin).value;
    js := Joins(st1, jl.value, d.forkNMin);
    table := Table(st1.open, st1.anc);
    if st1.open == [1] && st1.anc[1] == [] {
      JoinStart(st1, d.forkNMin, jl.value);
      NoKeysAtRoot(st1, table, SortedSet(table.Keys));
    }
  }

  /** With only the root open, whose chain is empty, the table has no key. */
  lemma NoKeysAtRoot(st: FjState, table: map<int, seq<int>>, keys: seq<int>)
    requires forall v :: v in st.open ==> v in st.anc && StrictlyIncreasing(st.anc[v])
    requires Distinct(st.open)
    requires table == Table(st.open, st.anc) && keys == SortedSet(table.Keys)
    ensures st.open == [1] && st.anc[1] == [] ==> keys == []
  {
    if st.open == [1] && st.anc[1] == [] {
      TableReversesChains(st.open, st.anc);
      forall j
        ensures j !in table
      {
        assert forall i :: i in st.open ==> i == 1;
      }
      assert table.Keys == {};
    }
  }

  /** Every graph gen_NFJ builds has nodes 1 .. N, edges that go from smaller
      to larger ids and strictly up in rank, no directed cycle, node 1 as its
      only source, and a single weakly connected component. When every fork
      has at least one child (fork_n_min >= 1, as with the defaults), node N
      is its only sink. */
  lemma GenNfjShape(d: DagTask, rng: Rng, g: Graph)
    requires GenNfj(d, rng) == Ok(g)
    ensures NodesBelow(g, |g.nodes| + 1)
    ensures Forward(g) && Acyclic(g) && Sources(g) == {1} && WeaklyConnected(g)
    ensures RankClimbs(g) && (forall v :: v in g.rank <==> v in g.nodes) && 1 in g.rank && g.rank[1] == 0
    ensures d.forkNMin >= 1 ==> TaskShape(g, 1, |g.nodes|)
  {
    var st1, js, table := GenNfjRun(d, rng, g);
    CloseShape(js, table, st1.next, d.forkNMin);
    ClosedShape(g, LastId(js), d.forkNMin);
  }

  /** The shape facts CloseShape gives about the final graph, with nothing of
      the run that produced it, make it a task graph. */
  lemma ClosedShape(g: Graph, last: int, fmin: int)
    requires NodesBelow(g, last + 1) && last >= 1
    requires Forward(g) && Rooted(g, 1)
    requires RankClimbs(g) && (forall v :: v in g.rank <==> v in g.nodes) && g.rank[1] == 0
    requires fmin >= 1 ==> Ended(g, last)
    ensures NodesBelow(g, |g.nodes| + 1)
    ensures Forward(g) && Acyclic(g) && Sources(g) == {1} && WeaklyConnected(g)
    ensures RankClimbs(g) && (forall v :: v in g.rank <==> v in g.nodes) && 1 in g.rank && g.rank[1] == 0
    ensures fmin >= 1 ==> TaskShape(g, 1, |g.nodes|)
  {
    CountBelow(g.nodes, last + 1);
    assert |g.nodes| == last;
    ForwardRootedShape(g, 1);
    if fmin >= 1 {
      ForwardTaskShape(g, 1, |g.nodes|);
    }
  }

  /** With depth <= 2 there is no fork round and the graph is the lone root;
      otherwise the root forks in the first round, so the graph has at least
      1 + fork_n_min nodes. */
  lemma GenNfjSize(d: DagTask, rng: Rng, g: Graph)
    requires GenNfj(d, rng) == Ok(g)
    ensures d.depth <= 2 ==> g == Graph({1}, map[1 := 0], {})
    ensures d.depth >= 3 ==> |g.nodes| >= 1 + d.forkNMin
  {
    var st1, js, table := GenNfjRun(d, rng, g);
    CloseShape(js, table, st1.next, d.forkNMin);
    CountBelow(g.nodes, LastId(js) + 1);
  }
}

=== FILE: graphs.dfy ===
/** The part of a networkx DiGraph the generators build: a node set, the
    `rank` attribute of the nodes that were given one, and a set of edges
    (a DiGraph connects an ordered pair at most once). */
module Graphs {

  datatype Graph = Graph(nodes: set<int>, rank: map<int, int>, edges: set<(int, int)>)

  const EmptyGraph := Graph({}, map[], {})

  /** G.add_node(v, rank=r): adds v, or updates its rank if present. */
  function AddNode(g: Graph, v: int, r: int): Graph
  {
    g.(nodes := g.nodes + {v}, rank := g.rank[v := r])
  }

  /** G.add_edge(a, b): adds both endpoints (without a rank when new) and the edge. */
  function AddEdge(g: Graph, a: int, b: int): Graph
  {
    g.(nodes := g.nodes + {a, b}, edges := g.edges + {(a, b)})
  }

  ghost predicate HasParent(g: Graph, v: int)
  {
    exists a :: (a, v) in g.edges
  }

  ghost predicate HasChild(g: Graph, v: int)
  {
    exists b :: (v, b) in g.edges
  }

  /** Nodes of in-degree 0. */
  ghost function Sources(g: Graph): set<int>
  {
    set v | v in g.nodes && !HasParent(g, v)
  }

  /** Nodes of out-degree 0. */
  ghost function Sinks(g: Graph): set<int>
  {
    set v | v in g.nodes && !HasChild(g, v)
  }

  /** Every edge joins two nodes of the graph and goes from a smaller id to a
      larger one. */
  ghost predicate Forward(g: Graph)
  {
    forall a, b :: (a, b) in g.edges ==> a in g.nodes && b in g.nodes && a < b
  }

  /** A directed path: consecutive entries are joined by an edge. */
  ghost predicate IsPath(g: Graph, p: seq<int>)
  {
    |p| >= 1 && forall i :: 0 <= i < |p| - 1 ==> (p[i], p[i + 1]) in g.edges
  }

  /** No directed path of one or more edges returns to where it started. */
  ghost predicate Acyclic(g: Graph)
  {
    forall p :: IsPath(g, p) && |p| >= 2 ==> p[0] != p[|p| - 1]
  }

  ghost predicate Adjacent(g: Graph, a: int, b: int)
  {
    (a, b) in g.edges || (b, a) in g.edges
  }

  /** A walk in the underlying undirected graph. */
  ghost predicate IsWalk(g: Graph, p: seq<int>)
  {
    && |p| >= 1
    && (forall i :: 0 <= i < |p| ==> p[i] in g.nodes)
    && (forall i :: 0 <= i < |p| - 1 ==> Adjacent(g, p[i], p[i + 1]))
  }

  ghost predicate Linked(g: Graph, a: int, b: int)
  {
    exists p :: IsWalk(g, p) && p[0] == a && p[|p| - 1] == b
  }

  /** networkx.is_weakly_connected: any two nodes are joined by an undirected walk. */
  ghost predicate WeaklyConnected(g: Graph)
  {
    forall a, b :: a in g.nodes && b in g.nodes ==> Linked(g, a, b)
  }

  /** `root` is the least node and every other node has a parent. */
  ghost predicate Rooted(g: Graph, root: int)
  {
    && root in g.nodes
    && (forall v :: v in g.nodes ==> root <= v)
    && (forall v :: v in g.nodes && v != root ==> HasParent(g, v))
  }

  /** `sink` is the greatest node and every other node has a child. */
  ghost predicate Ended(g: Graph, sink: int)
  {
    && sink in g.nodes
    && (forall v :: v in g.nodes ==> v <= sink)
    && (forall v :: v in g.nodes && v != sink ==> HasChild(g, v))
  }

  /** The shape every generated task graph must have. */
  ghost predicate TaskShape(g: Graph, source: int, sink: int)
  {
    && Acyclic(g)
    && Sources(g) == {source}
    && Sinks(g) == {sink}
    && WeaklyConnected(g)
  }

  /** The node ids of g are exactly 1 .. n-1. */
  ghost predicate NodesBelow(g: Graph, n: int)
  {
    forall v :: v in g.nodes <==> 1 <= v < n
  }

  /** Adds the nodes lo .. hi-1 with the given rank. */
  function AddRanked(g: Graph, lo: int, hi: int, r: int): (h: Graph)
    ensures forall v :: v in h.nodes <==> v in g.nodes || lo <= v < hi
    ensures forall v :: v in h.rank <==> v in g.rank || lo <= v < hi
    ensures h.edges == g.edges
    ensures forall v :: lo <= v < hi ==> h.rank[v] == r
    ensures forall v :: v in g.rank && !(lo <= v < hi) ==> h.rank[v] == g.rank[v]
    decreases hi - lo
  {
    if hi <= lo then g else AddRanked(AddNode(g, lo, r), lo + 1, hi, r)
  }

  /** Adds an edge from `a` to every node of `bs`. */
  function EdgesFrom(g: Graph, a: int, bs: seq<int>): (h: Graph)
    ensures forall v :: v in h.nodes <==> v in g.nodes || v in bs || (v == a && |bs| > 0)
    ensures forall x, y :: (x, y) in h.edges <==> (x, y) in g.edges || (x == a && y in bs)
    ensures h.rank == g.rank
    decreases |bs|
  {
    if |bs| == 0 then g
    else
      assert forall b :: b in bs <==> b == bs[0] || b in bs[1..];
      EdgesFrom(AddEdge(g, a, bs[0]), a, bs[1..])
  }

  /** Adds an edge from every node of `srcs` to `b`. */
  function EdgesTo(g: Graph, srcs: seq<int>, b: int): (h: Graph)
    ensures forall v :: v in h.nodes <==> v in g.nodes || v in srcs || (v == b && |srcs| > 0)
    ensures forall x, y :: (x, y) in h.edges <==> (x, y) in g.edges || (x in srcs && y == b)
    ensures h.rank == g.rank
    decreases |srcs|
  {
    if |srcs| == 0 then g
    else
      assert forall a :: a in srcs <==> a == srcs[0] || a in srcs[1..];
      EdgesTo(AddEdge(g, srcs[0], b), srcs[1..], b)
  }

  lemma {:induction false} ForwardPathClimbs(g: Graph, p: seq<int>)
    requires Forward(g) && IsPath(g, p) && |p| >= 2
    ensures p[0] < p[|p| - 1]
    decreases |p|
  {
    assert (p[0], p[1]) in g.edges;
    if |p| > 2 {
      var q := p[1..];
      assert IsPath(g, q) by {
        forall i | 0 <= i < |q| - 1
          ensures (q[i], q[i + 1]) in g.edges
        {
          assert q[i] == p[i + 1] && q[i + 1] == p[i + 2];
        }
      }
      ForwardPathClimbs(g, q);
    }
  }

  /** Edges that always climb in id leave no room for a cycle. */
  lemma ForwardIsAcyclic(g: Graph)
    requires Forward(g)
    ensures Acyclic(g)
  {
    forall p | IsPath(g, p) && |p| >= 2
      ensures p[0] != p[|p| - 1]
    {
      ForwardPathClimbs(g, p);
    }
  }

  lemma LinkedSymmetric(g: Graph, a: int, b: int)
    requires Linked(g, a, b)
    ensures Linked(g, b, a)
  {
    var p :| IsWalk(g, p) && p[0] == a && p[|p| - 1] == b;
    var q := seq(|p|, i requires 0 <= i < |p| => p[|p| - 1 - i]);
    forall i | 0 <= i < |q| - 1
      ensures Adjacent(g, q[i], q[i + 1])
    {
      assert Adjacent(g, p[|p| - 2 - i], p[|p| - 1 - i]);
    }
    assert IsWalk(g, q);
  }

  lemma LinkedTransitive(g: Graph, a: int, b: int, c: int)
    requires Linked(g, a, b) && Linked(g, b, c)
    ensures Linked(g, a, c)
  {
    var p :| IsWalk(g, p) && p[0] == a && p[|p| - 1] == b;
    var q :| IsWalk(g, q) && q[0] == b && q[|q| - 1] == c;
    var w := p + q[1..];
    forall i | 0 <= i < |w| - 1
      ensures Adjacent(g, w[i], w[i + 1])
    {
      if i < |p| - 1 {
        assert w[i] == p[i] && w[i + 1] == p[i + 1];
      } else {
        assert w[i] == q[i - |p| + 1] && w[i + 1] == q[i - |p| + 2];
      }
    }
    assert IsWalk(g, w);
  }

  /** Following parents down from v reaches the root. */
  lemma {:induction false} ParentsReachRoot(g: Graph, root: int, v: int)
    requires Forward(g) && Rooted(g, root) && v in g.nodes
    ensures Linked(g, root, v)
    decreases v - root
  {
    if v == root {
      assert IsWalk(g, [root]);
    } else {
      var a :| (a, v) in g.edges;
      ParentsReachRoot(g, root, a);
      assert IsWalk(g, [a, v]);
      LinkedTransitive(g, root, a, v);
    }
  }

  lemma RootedIsConnected(g: Graph, root: int)
    requires Forward(g) && Rooted(g, root)
    ensures WeaklyConnected(g)
  {
    forall a, b | a in g.nodes && b in g.nodes
      ensures Linked(g, a, b)
    {
      ParentsReachRoot(g, root, a);
      ParentsReachRoot(g, root, b);
      LinkedSymmetric(g, root, a);
      LinkedTransitive(g, a, root, b);
    }
  }

  /** A forward graph with a least root every other node hangs from is a
      weakly connected DAG whose only source is that root. */
  lemma ForwardRootedShape(g: Graph, root: int)
    requires Forward(g) && Rooted(g, root)
    ensures Acyclic(g) && Sources(g) == {root} && WeaklyConnected(g)
  {
    ForwardIsAcyclic(g);
    RootedIsConnected(g, root);
    assert !HasParent(g, root);
  }

  /** If moreover a greatest sink is fed by every other node, the graph is a
      single-source single-sink weakly connected DAG. */
  lemma ForwardTaskShape(g: Graph, source: int, sink: int)
    requires Forward(g) && Rooted(g, source) && Ended(g, sink)
    ensures TaskShape(g, source, sink)
  {
    ForwardRootedShape(g, source);
    assert !HasChild(g, sink);
  }
}

=== FILE: layered.dfy ===
/** DAG.gen_rnd: the layered random DAG generator. */
module Layered {
  import opened Wrappers
  import opened Seqs
  import opened Graphs
  import opened Oracle

  datatype RndParams = RndParams(parallelism: int, layerNumMin: int, layerNumMax: int, connectProb: real)

  /** The keyword defaults of gen_rnd. */
  const DefaultParams := RndParams(8, 5, 12, 0.5)

  /** The generator's local variables between two steps of its layer loop:
      the graph, the next free id `n`, the layers built so far (`nodes`),
      and the lists `nodes_parent`, `nodes_parent_childless`, `nodes_orphan`. */
  datatype State = State(
    g: Graph,
    next: int,
    layers: seq<seq<int>>,
    parents: seq<int>,
    childless: seq<int>,
    orphans: seq<int>,
    rng: Rng)

  /** What a successful run leaves behind: the graph, its layers (the local
      `nodes`, kept for stating the layout) and the id of the sink. */
  datatype Generated = Generated(g: Graph, layers: seq<seq<int>>, sink: int)

  /** Node c is an orphan still waiting for the sweep, or already has a parent. */
  ghost predicate Placed(st: State, c: int)
  {
    c in st.orphans || HasParent(st.g, c)
  }

  /** Node v is still listed as childless, or already has a child. */
  ghost predicate Settled(st: State, v: int)
  {
    v in st.childless || HasChild(st.g, v)
  }

  /** What stays true while the new layer lo .. hi-1 is wired to its parents. */
  ghost predicate Wiring(st: State, lo: int, hi: int)
  {
    && 2 <= lo <= hi == st.next
    && NodesBelow(st.g, hi)
    && Forward(st.g)
    && (forall a :: a in st.parents ==> 1 <= a < lo)
    && (forall o :: o in st.orphans ==> lo <= o < hi)
    && (forall v :: v in st.childless ==> 1 <= v < lo)
  }

  /** One Bernoulli trial `random() < connect_prob` for the pair (parent,
      child), and the bookkeeping the source does when it succeeds. */
  function TryEdge(st: State, parent: int, child: int, x: real, p: real): (r: State)
    ensures r.next == st.next && r.layers == st.layers && r.parents == st.parents && r.rng == st.rng
    ensures r.g.rank == st.g.rank
    ensures forall a, b :: (a, b) in r.g.edges <==> (a, b) in st.g.edges || (x < p && a == parent && b == child)
    ensures x < p && Distinct(st.orphans) ==> child !in r.orphans
    ensures x < p && Distinct(st.childless) ==> parent !in r.childless
    ensures forall o :: o in r.orphans ==> o in st.orphans
    ensures forall o :: o in st.orphans && o != child ==> o in r.orphans
    ensures x >= p ==> r == st
  {
    if x < p then
      st.(g := AddEdge(st.g, parent, child),
          orphans := if child in st.orphans then RemoveFirst(st.orphans, child) else st.orphans,
          childless := if parent in st.childless then RemoveFirst(st.childless, parent) else st.childless)
    else st
  }

  /** The inner loop over `nodes_parent` for one new node. */
  function ConnectParents(st: State, child: int, j: nat, p: real, ghost lo: int, ghost hi: int): (r: Result<State>)
    requires Wiring(st, lo, hi) && lo <= child < hi
    requires j <= |st.parents|
    ensures r.Ok? ==> Wiring(r.value, lo, hi)
    ensures r.Ok? ==> r.value.next == st.next && r.value.layers == st.layers && r.value.parents == st.parents
    ensures r.Ok? ==> r.value.g.nodes == st.g.nodes && r.value.g.rank == st.g.rank
    ensures r.Ok? ==> st.g.edges <= r.value.g.edges
    ensures r.Ok? ==> forall c :: Placed(st, c) ==> Placed(r.value, c)
    ensures r.Ok? ==> forall v :: Settled(st, v) ==> Settled(r.value, v)
    decreases |st.parents| - j
  {
    if j == |st.parents| then Ok(st)
    else
      var d :- Random(st.rng);
      var parent := st.parents[j];
      assert parent in st.parents;
      var st1 := TryEdge(st.(rng := d.rest), parent, child, d.value, p);
      assert st1.g.nodes == st.g.nodes;
      assert Wiring(st1, lo, hi);
      assert forall c :: Placed(st, c) ==> Placed(st1, c) by {
        forall c | Placed(st, c)
          ensures Placed(st1, c)
        {
          if d.value < p && c == child {
            assert (parent, child) in st1.g.edges;
          } else if HasParent(st.g, c) {
            var a :| (a, c) in st.g.edges;
            assert (a, c) in st1.g.edges;
          }
        }
      }
      assert forall v :: Settled(st, v) ==> Settled(st1, v) by {
        forall v | Settled(st, v)
          ensures Settled(st1, v)
        {
          if d.value < p && v == parent {
            assert (parent, child) in st1.g.edges;
          } else if HasChild(st.g, v) {
            var b :| (v, b) in st.g.edges;
            assert (v, b) in st1.g.edges;
          }
        }
      }
      ConnectParents(st1, child, j + 1, p, lo, hi)
  }

  /** The outer loop over the nodes of the new layer. */
  function ConnectChildren(st: State, ids: seq<int>, i: nat, p: real, ghost lo: int, ghost hi: int): (r: Result<State>)
    requires Wiring(st, lo, hi)
    requires forall c :: c in ids ==> lo <= c < hi
    requires i <= |ids|
    ensures r.Ok? ==> Wiring(r.value, lo, hi)
    ensures r.Ok? ==> r.value.next == st.next && r.value.layers == st.layers && r.value.parents == st.parents
    ensures r.Ok? ==> r.value.g.nodes == st.g.nodes && r.value.g.rank == st.g.rank
    ensures r.Ok? ==> st.g.edges <= r.value.g.edges
    ensures r.Ok? ==> forall c :: Placed(st, c) ==> Placed(r.value, c)
    ensures r.Ok? ==> forall v :: Settled(st, v) ==> Settled(r.value, v)
    decreases |ids| - i
  {
    if i == |ids| then Ok(st)
    else
      assert ids[i] in ids;
      var st1 :- ConnectParents(st, ids[i], 0, p, lo, hi);
      ConnectChildren(st1, ids, i + 1, p, lo, hi)
  }

  /** The loop-end sweep: every remaining orphan gets an edge from the root,
      and the orphan list is emptied. */
  function Sweep(st: State): (r: State)
    ensures r.orphans == [] && r.g.rank == st.g.rank
    ensures forall o :: o in st.orphans ==> (1, o) in r.g.edges
    ensures forall a, b :: (a, b) in r.g.edges <==> (a, b) in st.g.edges || (a == 1 && b in st.orphans)
  {
    st.(g := EdgesFrom(st.g, 1, st.orphans), orphans := [])
  }

  /** What holds between two iterations of the layer loop when `par` is the
      parallelism bound. */
  ghost predicate LayerInv(st: State, par: int)
  {
    && st.next >= 2
    && NodesBelow(st.g, st.next)
    && st.g.rank.Keys == st.g.nodes
    && Forward(st.g)
    && (forall v :: 1 < v < st.next ==> HasParent(st.g, v))
    && (forall v :: 1 <= v < st.next ==> v in st.parents || Settled(st, v))
    && |st.parents| > 0
    && (forall v :: v in st.parents ==> 1 <= v < st.next)
    && (forall v :: v in st.childless ==> 1 <= v < st.next)
    && st.orphans == []
    && |st.layers| >= 1 && st.layers[0] == [1]
    && st.parents == st.layers[|st.layers| - 1]
    && Flatten(st.layers) == Iota(1, st.next)
    && (forall k :: 1 <= k < |st.layers| ==> 1 <= |st.layers[k]| <= par)
    && (forall k, v :: 0 <= k < |st.layers| && v in st.layers[k] ==> v in st.g.rank && st.g.rank[v] == k)
  }

  /** One iteration of the layer loop, for layer index k (rank k+1). */
  function Layer(st: State, k: int, params: RndParams): (r: Result<State>)
    requires LayerInv(st, params.parallelism) && k == |st.layers| - 1
    ensures r.Ok? ==> LayerInv(r.value, params.parallelism) && |r.value.layers| == |st.layers| + 1
    ensures r.Ok? ==> r.value.layers[..|st.layers|] == st.layers
    ensures params.parallelism < 1 ==> r == Err(ValueError)
  {
    var d :- RandInt(1, params.parallelism, st.rng);
    var m := d.value;
    var lo, hi := st.next, st.next + m;
    var ids := Iota(lo, hi);
    IotaMembers(lo, hi);
    IotaFacts(lo, hi);
    var st1 := State(AddRanked(st.g, lo, hi, k + 1), hi, st.layers + [ids],
                     st.parents, st.childless + st.parents, st.orphans + ids, d.rest);
    assert Wiring(st1, lo, hi);
    var st2 :- ConnectChildren(st1, ids, 0, params.connectProb, lo, hi);
    var st3 := Sweep(st2.(parents := ids));
    LayerStep(st, k, params.parallelism, st1, st2, st3, ids, lo, hi);
    Ok(st3)
  }

  /** The sweep only adds edges from the root to the orphans of the layer. */
  lemma SweepFacts(st: State, lo: int, hi: int)
    requires Wiring(st, lo, hi)
    ensures Sweep(st).g.nodes == st.g.nodes && Sweep(st).g.rank == st.g.rank
    ensures Forward(Sweep(st).g)
    ensures st.g.edges <= Sweep(st).g.edges
    ensures forall o :: o in st.orphans ==> (1, o) in Sweep(st).g.edges
  {
    var h := Sweep(st).g;
    forall e | e in st.g.edges
      ensures e in h.edges
    {
      assert (e.0, e.1) in h.edges;
    }
    assert forall o :: o in st.orphans ==> 1 in st.g.nodes && o in st.g.nodes;
    if |st.orphans| > 0 {
      assert st.orphans[0] in st.orphans;
    }
    assert h.nodes == st.g.nodes;
  }

  lemma StepParents(st: State, st1: State, st2: State, st3: State, lo: int, hi: int)
    requires forall v :: 1 < v < lo ==> HasParent(st.g, v)
    requires forall v :: lo <= v < hi ==> v in st1.orphans
    requires st.g.edges <= st2.g.edges <= st3.g.edges
    requires forall c :: Placed(st1, c) ==> Placed(st2, c)
    requires forall o :: o in st2.orphans ==> (1, o) in st3.g.edges
    ensures forall v :: 1 < v < hi ==> HasParent(st3.g, v)
  {
    forall v | 1 < v < hi
      ensures HasParent(st3.g, v)
    {
      if v < lo {
        assert HasParent(st.g, v);
        var a :| (a, v) in st.g.edges;
        assert (a, v) in st3.g.edges;
      } else {
        assert Placed(st1, v);
        if v in st2.orphans {
          assert (1, v) in st3.g.edges;
        } else {
          var a :| (a, v) in st2.g.edges;
          assert (a, v) in st3.g.edges;
        }
      }
    }
  }

  lemma StepSettled(st: State, st1: State, st2: State, st3: State, ids: seq<int>, lo: int, hi: int)
    requires forall v :: 1 <= v < lo ==> v in st.parents || Settled(st, v)
    requires forall v :: lo <= v < hi ==> v in ids
    requires st1.childless == st.childless + st.parents && st1.g.edges == st.g.edges
    requires st2.g.edges <= st3.g.edges && st3.childless == st2.childless && st3.parents == ids
    requires forall v :: Settled(st1, v) ==> Settled(st2, v)
    ensures forall v :: 1 <= v < hi ==> v in st3.parents || Settled(st3, v)
  {
    forall v | 1 <= v < hi
      ensures v in st3.parents || Settled(st3, v)
    {
      if v < lo {
        if v in st.parents || v in st.childless {
          assert v in st1.childless;
        } else {
          assert HasChild(st.g, v);
          var b :| (v, b) in st.g.edges;
          assert (v, b) in st1.g.edges;
        }
        assert Settled(st1, v);
        assert Settled(st2, v);
        if HasChild(st2.g, v) {
          var b :| (v, b) in st2.g.edges;
          assert (v, b) in st3.g.edges;
        }
      }
    }
  }

  lemma StepLayers(st: State, k: int, par: int, g1: Graph, g3: Graph, layers: seq<seq<int>>, ids: seq<int>, lo: int, hi: int)
    requires LayerInv(st, par) && k == |st.layers| - 1
    requires lo == st.next && 1 <= hi - lo <= par && ids == Iota(lo, hi)
    requires g1 == AddRanked(st.g, lo, hi, k + 1) && g3.rank == g1.rank
    requires layers == st.layers + [ids]
    ensures Flatten(layers) == Iota(1, hi)
    ensures forall kk :: 1 <= kk < |layers| ==> 1 <= |layers[kk]| <= par
    ensures forall kk, v :: 0 <= kk < |layers| && v in layers[kk] ==> v in g3.rank && g3.rank[v] == kk
  {
    IotaMembers(lo, hi);
    IotaFacts(lo, hi);
    FlattenSnoc(st.layers, ids);
    IotaAppend(1, lo, hi);
    IotaMembers(1, lo);
    forall kk, v | 0 <= kk < |layers| && v in layers[kk]
      ensures v in g3.rank && g3.rank[v] == kk
    {
      if kk < |st.layers| {
        assert v in st.layers[kk];
        FlattenMember(st.layers, kk, v);
        assert v < lo;
      }
    }
  }

  lemma LayerStep(st: State, k: int, par: int, st1: State, st2: State, st3: State, ids: seq<int>, lo: int, hi: int)
    requires LayerInv(st, par) && k == |st.layers| - 1
    requires lo == st.next && 1 <= hi - lo <= par && ids == Iota(lo, hi)
    requires st1 == State(AddRanked(st.g, lo, hi, k + 1), hi, st.layers + [ids],
                          st.parents, st.childless + st.parents, st.orphans + ids, st1.rng)
    requires Wiring(st2, lo, hi)
    requires st2.next == st1.next && st2.layers == st1.layers && st2.parents == st1.parents
    requires st2.g.nodes == st1.g.nodes && st2.g.rank == st1.g.rank
    requires st1.g.edges <= st2.g.edges
    requires forall c :: Placed(st1, c) ==> Placed(st2, c)
    requires forall v :: Settled(st1, v) ==> Settled(st2, v)
    requires st3 == Sweep(st2.(parents := ids))
    ensures LayerInv(st3, par) && |st3.layers| == |st.layers| + 1
    ensures st3.layers[..|st.layers|] == st.layers
  {
    IotaMembers(lo, hi);
    IotaFacts(lo, hi);
    SweepFacts(st2, lo, hi);
    assert st3.g == Sweep(st2).g;
    StepParents(st, st1, st2, st3, lo, hi);
    StepSettled(st, st1, st2, st3, ids, lo, hi);
    StepLayers(st, k, par, st1.g, st3.g, st3.layers, ids, lo, hi);
    assert st3.layers == st.layers + [ids];
    assert st3.layers[..|st.layers|] == st.layers;
    assert ids[0] in ids;
  }

  lemma {:induction false} FlattenMember(ls: seq<seq<int>>, k: int, v: int)
    requires 0 <= k < |ls| && v in ls[k]
    ensures v in Flatten(ls)
  {
    if k < |ls| - 1 {
      FlattenMember(ls[..|ls| - 1], k, v);
    }
  }

  /** The layer loop `for k in range(layer_num_this)`, from iteration k on. */
  function RunLayers(st: State, k: int, count: int, params: RndParams): (r: Result<State>)
    requires LayerInv(st, params.parallelism) && k == |st.layers| - 1
    ensures r.Ok? ==> LayerInv(r.value, params.parallelism)
    ensures r.Ok? ==> |r.value.layers| == 1 + (if count < k then k else count)
    ensures r.Ok? ==> r.value.layers[..|st.layers|] == st.layers
    ensures k < count && params.parallelism < 1 ==> r == Err(ValueError)
    decreases count - k
  {
    if count <= k then Ok(st)
    else
      var st1 :- Layer(st, k, params);
      var r := RunLayers(st1, k + 1, count, params);
      if r.Ok? then
        PrefixOfPrefix(st.layers, st1.layers, r.value.layers);
        r
      else r
  }

  lemma PrefixOfPrefix<T>(a: seq<T>, b: seq<T>, c: seq<T>)
    requires |a| <= |b| <= |c| && b[..|a|] == a && c[..|b|] == b
    ensures c[..|a|] == a
  {
    assert c[..|a|] == c[..|b|][..|a|];
  }

  /** The code after the layer loop: the sink `n` gets an edge from every
      node of the last layer and from every accumulated childless parent,
      and the remaining orphans are swept to the root. */
  function Finish(st: State): (o: Generated)
    ensures o.sink == st.next && o.layers == st.layers && o.g.rank == st.g.rank
    ensures forall a, b :: (a, b) in st.g.edges ==> (a, b) in o.g.edges
    ensures forall v :: v in st.parents ==> (v, o.sink) in o.g.edges
    ensures forall v :: v in st.childless ==> (v, o.sink) in o.g.edges
    ensures forall v :: v in st.orphans ==> (1, v) in o.g.edges
  {
    var n := st.next;
    var g1 := EdgesTo(st.g, st.parents, n);
    var g2 := EdgesTo(g1, st.childless, n);
    Generated(EdgesFrom(g2, 1, st.orphans), st.layers, n)
  }

  lemma FinishShape(st: State, par: int, o: Generated)
    requires LayerInv(st, par) && o == Finish(st)
    ensures o.sink == st.next && o.layers == st.layers && o.g.rank == st.g.rank
    ensures NodesBelow(o.g, o.sink + 1)
    ensures forall v :: v in o.g.rank <==> v in o.g.nodes && v != o.sink
    ensures Forward(o.g)
    ensures Rooted(o.g, 1)
    ensures Ended(o.g, o.sink)
  {
    var n := st.next;
    var g := o.g;
    assert st.parents[0] in st.parents;
    assert (st.parents[0], n) in g.edges;
    assert forall v :: v in g.nodes <==> v in st.g.nodes || v == n;
    assert forall x, y :: (x, y) in g.edges <==> (x, y) in st.g.edges || ((x in st.parents || x in st.childless) && y == n);
    forall v | v in g.nodes && v != 1
      ensures HasParent(g, v)
    {
      if v < n {
        assert HasParent(st.g, v);
        var a :| (a, v) in st.g.edges;
        assert (a, v) in g.edges;
      }
    }
    forall v | v in g.nodes && v != n
      ensures HasChild(g, v)
    {
      if v in st.parents || v in st.childless {
        assert (v, n) in g.edges;
      } else {
        assert HasChild(st.g, v);
        var b :| (v, b) in st.g.edges;
        assert (v, b) in g.edges;
      }
    }
  }

  /** DAG.gen_rnd(parallelism, layer_num_min, layer_num_max, connect_prob):
      the root, then max(L, 0) interior layers where L is drawn from
      [layer_num_min - 2, layer_num_max - 2], then the sink. */
  function GenRnd(params: RndParams, rng: Rng): (r: Result<Generated>)
    ensures params.layerNumMin > params.layerNumMax ==> r == Err(ValueError)
    ensures params.parallelism < 1 && params.layerNumMin > 2 ==> r.Err?
  {
    var d :- RandInt(params.layerNumMin - 2, params.layerNumMax - 2, rng);
    var st1 :- RunLayers(Start(d.rest, params.parallelism), 0, d.value, params);
    Ok(Finish(st1))
  }

  /** The state right after the root is added. */
  function Start(rng: Rng, ghost par: int): (st: State)
    ensures LayerInv(st, par)
  {
    var st := State(AddNode(EmptyGraph, 1, 0), 2, [[1]], [1], [], [], rng);
    assert Flatten(st.layers) == Iota(1, 2) by {
      assert st.layers[..0] == [];
    }
    st
  }

  /** Every graph gen_rnd returns has node ids exactly 1 .. N with the sink N
      the only node without a rank; the layers are the root alone at rank 0
      and then interior layers of 1 .. parallelism consecutive ids each, layer
      k at rank k; it is acyclic, node 1 is its only source, N its only sink,
      and it is weakly connected. */
  lemma GenRndShape(params: RndParams, rng: Rng, o: Generated)
    requires GenRnd(params, rng) == Ok(o)
    ensures TaskShape(o.g, 1, o.sink)
    ensures Forward(o.g)
    ensures NodesBelow(o.g, o.sink + 1)
    ensures forall v :: v in o.g.rank <==> v in o.g.nodes && v != o.sink
    ensures |o.layers| >= 1 && o.layers[0] == [1]
    ensures Flatten(o.layers) == Iota(1, o.sink)
    ensures forall k :: 1 <= k < |o.layers| ==> 1 <= |o.layers[k]| <= params.parallelism
    ensures forall k, v :: 0 <= k < |o.layers| && v in o.layers[k] ==> v in o.g.rank && o.g.rank[v] == k
    ensures params.layerNumMin - 2 <= |o.layers| - 1 <= Max0(params.layerNumMax - 2)
  {
    var count := GenRndRun(params, rng, o);
    ShapedFacts(o, params.parallelism);
    assert TaskShape(o.g, 1, o.sink) && Forward(o.g) && NodesBelow(o.g, o.sink + 1);
    assert forall v :: v in o.g.rank <==> v in o.g.nodes && v != o.sink;
    assert Flatten(o.layers) == Iota(1, o.sink);
  }

  lemma ShapedFacts(o: Generated, par: int)
    requires Shaped(o, par)
    ensures TaskShape(o.g, 1, o.sink) && Forward(o.g) && NodesBelow(o.g, o.sink + 1)
    ensures forall v :: v in o.g.rank <==> v in o.g.nodes && v != o.sink
    ensures |o.layers| >= 1 && o.layers[0] == [1]
    ensures Flatten(o.layers) == Iota(1, o.sink)
    ensures forall k :: 1 <= k < |o.layers| ==> 1 <= |o.layers[k]| <= par
    ensures forall k, v :: 0 <= k < |o.layers| && v in o.layers[k] ==> v in o.g.rank && o.g.rank[v] == k
  {
  }

  /** The shape of a finished graph, as GenRndShape spells it out. */
  ghost predicate Shaped(o: Generated, par: int)
  {
    && TaskShape(o.g, 1, o.sink)
    && Forward(o.g)
    && NodesBelow(o.g, o.sink + 1)
    && (forall v :: v in o.g.rank <==> v in o.g.nodes && v != o.sink)
    && |o.layers| >= 1 && o.layers[0] == [1]
    && Flatten(o.layers) == Iota(1, o.sink)
    && (forall k :: 1 <= k < |o.layers| ==> 1 <= |o.layers[k]| <= par)
    && LayersRanked(o.layers, o.g.rank)
  }

  /** Layer k holds nodes of rank k. */
  ghost predicate LayersRanked(layers: seq<seq<int>>, rank: map<int, int>)
  {
    forall k, v :: 0 <= k < |layers| && v in layers[k] ==> v in rank && rank[v] == k
  }

  /** A successful run has the finished shape, with max(L, 0) interior
      layers for the drawn layer count L. */
  lemma GenRndRun(params: RndParams, rng: Rng, o: Generated) returns (count: int)
    requires GenRnd(params, rng) == Ok(o)
    ensures Shaped(o, params.parallelism)
    ensures params.layerNumMin - 2 <= count <= params.layerNumMax - 2
    ensures |o.layers| == 1 + Max0(count)
  {
    var st;
    st, count := GenRndState(params, rng, o);
    FinishTheorem(st, params.parallelism, o);
  }

  /** A successful run is the finishing step applied to a state that meets
      the layer invariant after max(L, 0) layers. */
  lemma GenRndState(params: RndParams, rng: Rng, o: Generated) returns (st: State, count: int)
    requires GenRnd(params, rng) == Ok(o)
    ensures LayerInv(st, params.parallelism) && o == Finish(st)
    ensures params.layerNumMin - 2 <= count <= params.layerNumMax - 2
    ensures |st.layers| == 1 + Max0(count)
  {
    var d := RandInt(params.layerNumMin - 2, params.layerNumMax - 2, rng).value;
    count := d.value;
    st := RunLayers(Start(d.rest, params.parallelism), 0, count, params).value;
  }

  lemma FinishTheorem(st: State, par: int, o: Generated)
    requires LayerInv(st, par) && o == Finish(st)
    ensures Shaped(o, par)
    ensures o.layers == st.layers
  {
    FinishShape(st, par, o);
    LayersKept(st, par, o);
    ShapedFrom(par, o);
  }

  /** The facts FinishShape derives and the layer facts the invariant hands
      on together are the whole shape. */
  lemma ShapedFrom(par: int, o: Generated)
    requires NodesBelow(o.g, o.sink + 1)
    requires forall v :: v in o.g.rank <==> v in o.g.nodes && v != o.sink
    requires Forward(o.g) && Rooted(o.g, 1) && Ended(o.g, o.sink)
    requires |o.layers| >= 1 && o.layers[0] == [1]
    requires Flatten(o.layers) == Iota(1, o.sink)
    requires forall k :: 1 <= k < |o.layers| ==> 1 <= |o.layers[k]| <= par
    requires LayersRanked(o.layers, o.g.rank)
    ensures Shaped(o, par)
  {
    ForwardTaskShape(o.g, 1, o.sink);
  }

  /** The layer facts of the invariant carry over to the finished graph,
      which keeps the layers, the ranks and the next id as its sink. */
  lemma LayersKept(st: State, par: int, o: Generated)
    requires LayerInv(st, par)
    requires o.layers == st.layers && o.g.rank == st.g.rank && o.sink == st.next
    ensures |o.layers| >= 1 && o.layers[0] == [1]
    ensures Flatten(o.layers) == Iota(1, o.sink)
    ensures forall k :: 1 <= k < |o.layers| ==> 1 <= |o.layers[k]| <= par
    ensures LayersRanked(o.layers, o.g.rank)
  {
  }

  /** The node count N lies between layer_num_min and
      (layer_num_max - 2) * parallelism + 2. */
  lemma GenRndNodeCount(params: RndParams, rng: Rng, o: Generated)
    requires GenRnd(params, rng) == Ok(o)
    requires 2 <= params.layerNumMin && 1 <= params.parallelism
    ensures |o.g.nodes| == o.sink
    ensures params.layerNumMin <= o.sink <= (params.layerNumMax - 2) * params.parallelism + 2
  {
    GenRndShape(params, rng, o);
    CountBelow(o.g.nodes, o.sink + 1);
    LayerCountBounds(o.layers, o.sink, params);
  }

  lemma LayerCountBounds(layers: seq<seq<int>>, sink: int, params: RndParams)
    requires 2 <= params.layerNumMin <= params.layerNumMax && 1 <= params.parallelism
    requires |layers| >= 1 && layers[0] == [1]
    requires Flatten(layers) == Iota(1, sink)
    requires forall k :: 1 <= k < |layers| ==> 1 <= |layers[k]| <= params.parallelism
    requires params.layerNumMin - 2 <= |layers| - 1 <= Max0(params.layerNumMax - 2)
    ensures params.layerNumMin <= sink <= (params.layerNumMax - 2) * params.parallelism + 2
  {
    IotaFacts(1, sink);
    FlattenLength(layers, params.parallelism);
    var L := |layers| - 1;
    assert L <= params.layerNumMax - 2;
    MulMonotone(L, params.layerNumMax - 2, params.parallelism);
  }

  lemma MulMonotone(a: int, b: int, c: int)
    requires a <= b && 0 <= c
    ensures a * c <= b * c
  {
    assert (b - a) * c >= 0;
  }
}

=== FILE: loader.dfy ===
/** The conversion load_task applies to a stored task graph: its labelled
    edge list becomes the successor dictionary G_dict, the sorted node list
    V_array, the cost dictionary C_dict, the cost list C_array and the total
    cost W. Reading the file is not modelled; the edge list (in the order
    the graph library hands it out) and the period T are the inputs. */
module Loader {
  import opened Wrappers
  import opened Seqs

  /** An edge u -> v with its 'label' attribute, the cost of u. */
  datatype Edge = Edge(u: int, v: int, cost: real)

  /** What the edge loop has built so far: G_dict, max_key, V_array in
      first-seen order, and C_dict. */
  datatype Scan = Scan(gDict: map<int, seq<int>>, maxKey: int, seen: seq<int>, cDict: map<int, real>)

  datatype Task<T> = Task(gDict: map<int, seq<int>>, vArray: seq<int>, cDict: map<int, real>,
                          cArray: seq<real>, period: T, w: real)

  // Reference definitions, read off the edge list directly.

  predicate IsTail(edges: seq<Edge>, x: int)
  {
    exists i :: 0 <= i < |edges| && edges[i].u == x
  }

  predicate IsHead(edges: seq<Edge>, x: int)
  {
    exists i :: 0 <= i < |edges| && edges[i].v == x
  }

  /** The heads of x's out-edges, in edge order. */
  function Heads(edges: seq<Edge>, x: int): seq<int>
  {
    if |edges| == 0 then []
    else Heads(edges[..|edges| - 1], x) + (if edges[|edges| - 1].u == x then [edges[|edges| - 1].v] else [])
  }

  /** The label of x's last out-edge. */
  function LastLabel(edges: seq<Edge>, x: int): real
    requires IsTail(edges, x)
  {
    var e := edges[|edges| - 1];
    if e.u == x then e.cost
    else
      TailOfPrefix(edges, x);
      LastLabel(edges[..|edges| - 1], x)
  }

  /** max_key: the largest head, or 0 when no head exceeds 0. */
  function MaxHead(edges: seq<Edge>): (m: int)
    ensures m >= 0
    ensures forall i :: 0 <= i < |edges| ==> edges[i].v <= m
    ensures m == 0 || IsHead(edges, m)
  {
    if |edges| == 0 then 0
    else
      var p := edges[..|edges| - 1];
      var m0 := MaxHead(p);
      var e := edges[|edges| - 1];
      assert forall i :: 0 <= i < |p| ==> edges[i] == p[i];
      if e.v > m0 then e.v else m0
  }

  lemma TailOfPrefix(edges: seq<Edge>, x: int)
    requires |edges| > 0
    ensures IsTail(edges, x) <==> IsTail(edges[..|edges| - 1], x) || edges[|edges| - 1].u == x
    ensures IsHead(edges, x) <==> IsHead(edges[..|edges| - 1], x) || edges[|edges| - 1].v == x
  {
    var p := edges[..|edges| - 1];
    if IsTail(p, x) {
      var i :| 0 <= i < |p| && p[i].u == x;
      assert edges[i] == p[i];
    }
    if IsHead(p, x) {
      var i :| 0 <= i < |p| && p[i].v == x;
      assert edges[i] == p[i];
    }
    if IsTail(edges, x) && edges[|edges| - 1].u != x {
      var i :| 0 <= i < |edges| && edges[i].u == x;
      assert p[i] == edges[i];
    }
    if IsHead(edges, x) && edges[|edges| - 1].v != x {
      var i :| 0 <= i < |edges| && edges[i].v == x;
      assert p[i] == edges[i];
    }
  }

  lemma {:induction false} NoHeadsOffTail(edges: seq<Edge>, x: int)
    requires !IsTail(edges, x)
    ensures Heads(edges, x) == []
  {
    if |edges| > 0 {
      TailOfPrefix(edges, x);
      NoHeadsOffTail(edges[..|edges| - 1], x);
    }
  }

  predicate IsEndpoint(edges: seq<Edge>, x: int)
  {
    IsTail(edges, x) || IsHead(edges, x)
  }

  // The loop itself.

  /** One pass of the loop body for edge e. */
  function ScanStep(s: Scan, e: Edge): Scan
  {
    var heads := if e.u in s.gDict then s.gDict[e.u] + [e.v] else [e.v];
    var seen1 := if e.u in s.seen then s.seen else s.seen + [e.u];
    var seen2 := if e.v in seen1 then seen1 else seen1 + [e.v];
    Scan(s.gDict[e.u := heads], if e.v > s.maxKey then e.v else s.maxKey, seen2, s.cDict[e.u := e.cost])
  }

  /** What the loop has built once it has gone through `edges`: G_dict has
      an entry for every tail, holding its heads in edge order; V_array holds
      every endpoint once; C_dict maps every tail to its last label. */
  function ScanEdges(edges: seq<Edge>): (s: Scan)
    ensures forall x :: x in s.gDict <==> IsTail(edges, x)
    ensures forall x :: x in s.gDict ==> s.gDict[x] == Heads(edges, x)
    ensures s.maxKey == MaxHead(edges)
    ensures Distinct(s.seen)
    ensures forall x :: x in s.seen <==> IsEndpoint(edges, x)
    ensures forall x :: x in s.cDict <==> IsTail(edges, x)
    ensures forall x :: x in s.cDict ==> s.cDict[x] == LastLabel(edges, x)
  {
    if |edges| == 0 then Scan(map[], 0, [], map[])
    else
      var p := edges[..|edges| - 1];
      var e := edges[|edges| - 1];
      var s0 := ScanEdges(p);
      var s := ScanStep(s0, e);
      ScanStepFacts(edges, s0, s);
      s
  }

  lemma ScanStepFacts(edges: seq<Edge>, s0: Scan, s: Scan)
    requires |edges| > 0
    requires var p := edges[..|edges| - 1];
      && (forall x :: x in s0.gDict <==> IsTail(p, x))
      && (forall x :: x in s0.gDict ==> s0.gDict[x] == Heads(p, x))
      && s0.maxKey == MaxHead(p)
      && Distinct(s0.seen)
      && (forall x :: x in s0.seen <==> IsEndpoint(p, x))
      && (forall x :: x in s0.cDict <==> IsTail(p, x))
      && (forall x :: x in s0.cDict ==> s0.cDict[x] == LastLabel(p, x))
    requires s == ScanStep(s0, edges[|edges| - 1])
    ensures forall x :: x in s.gDict <==> IsTail(edges, x)
    ensures forall x :: x in s.gDict ==> s.gDict[x] == Heads(edges, x)
    ensures s.maxKey == MaxHead(edges)
    ensures Distinct(s.seen)
    ensures forall x :: x in s.seen <==> IsEndpoint(edges, x)
    ensures forall x :: x in s.cDict <==> IsTail(edges, x)
    ensures forall x :: x in s.cDict ==> s.cDict[x] == LastLabel(edges, x)
  {
    var p := edges[..|edges| - 1];
    var e := edges[|edges| - 1];
    forall x ensures x in s.gDict <==> IsTail(edges, x) {
      TailOfPrefix(edges, x);
    }
    forall x | x in s.gDict ensures s.gDict[x] == Heads(edges, x) {
      TailOfPrefix(edges, x);
      if !IsTail(p, x) {
        NoHeadsOffTail(p, x);
      }
    }
    forall x ensures x in s.seen <==> IsEndpoint(edges, x) {
      TailOfPrefix(edges, x);
    }
    forall x | x in s.cDict ensures s.cDict[x] == LastLabel(edges, x) {
      TailOfPrefix(edges, x);
    }
    SeenDistinct(s0.seen, e);
  }

  lemma SeenDistinct(seen: seq<int>, e: Edge)
    requires Distinct(seen)
    ensures var seen1 := if e.u in seen then seen else seen + [e.u];
      var seen2 := if e.v in seen1 then seen1 else seen1 + [e.v];
      Distinct(seen1) && Distinct(seen2)
  {
    var seen1 := if e.u in seen then seen else seen + [e.u];
    if e.u !in seen {
      DistinctConcat(seen, [e.u]);
    }
    if e.v !in seen1 {
      DistinctConcat(seen1, [e.v]);
    }
  }

  /** load_task's conversion. After the loop the largest head max_key gets
      cost 1 and no successors, whatever the loop stored for it; C_array
      lists the costs by ascending node and W is their total. */
  function LoadTask<T>(edges: seq<Edge>, period: T): (t: Task<T>)
    ensures forall x :: x in t.gDict <==> IsTail(edges, x) || x == MaxHead(edges)
    ensures forall x :: x in t.cDict <==> x in t.gDict
    ensures t.gDict[MaxHead(edges)] == [] && t.cDict[MaxHead(edges)] == 1.0
    ensures forall x :: x in t.vArray <==> IsEndpoint(edges, x)
    ensures |t.cArray| == |t.cDict|
    ensures t.period == period
  {
    var s := ScanEdges(edges);
    var c := s.cDict[s.maxKey := 1.0];
    var keys := SortedSet(c.Keys);
    var cArray := seq(|keys|, i requires 0 <= i < |keys| => c[keys[i]]);
    Task(s.gDict[s.maxKey := []], SortedSet(set x | x in s.seen), c, cArray, period, Sum(cArray))
  }

  // Properties of the conversion.

  /** V_array is sorted, free of duplicates and holds exactly the endpoints
      of the edges. */
  lemma NodesSorted<T>(edges: seq<Edge>, period: T)
    ensures var t := LoadTask(edges, period);
      && StrictlyIncreasing(t.vArray)
      && Distinct(t.vArray)
      && (forall x :: x in t.vArray <==> IsEndpoint(edges, x))
  {
    var t := LoadTask(edges, period);
    StrictlyIncreasingDistinct(t.vArray);
  }

  lemma StrictlyIncreasingDistinct(s: seq<int>)
    requires StrictlyIncreasing(s)
    ensures Distinct(s)
  {
    forall i, j | 0 <= i < |s| && 0 <= j < |s| && i != j ensures s[i] != s[j] {
      if i < j {
        assert s[i] < s[j];
      } else {
        assert s[j] < s[i];
      }
    }
  }

  /** G_dict: every tail lists its heads in edge order, except max_key,
      which is forced to have none; no other node has an entry. */
  lemma SuccessorsListed<T>(edges: seq<Edge>, period: T)
    ensures var t := LoadTask(edges, period);
      var mk := MaxHead(edges);
      && (forall x :: x in t.gDict <==> IsTail(edges, x) || x == mk)
      && t.gDict[mk] == []
      && (forall x :: x in t.gDict && x != mk ==> t.gDict[x] == Heads(edges, x))
  {
  }

  /** Every G_dict key is a node of V_array once some edge has a head that
      is not negative; node ids from the generators start at 1. */
  lemma KeysAreNodes<T>(edges: seq<Edge>, period: T)
    requires exists i :: 0 <= i < |edges| && edges[i].v >= 0
    ensures var t := LoadTask(edges, period);
      forall x :: x in t.gDict ==> x in t.vArray
  {
    var t := LoadTask(edges, period);
    var mk := MaxHead(edges);
    var i :| 0 <= i < |edges| && edges[i].v >= 0;
    if mk == 0 {
      assert edges[i].v <= 0;
      assert IsHead(edges, 0);
    }
    assert IsEndpoint(edges, mk);
    forall x | x in t.gDict ensures x in t.vArray {
      assert IsEndpoint(edges, x);
    }
  }

  /** C_dict: max_key costs 1 and every other tail costs the label of its
      last out-edge; no other node has an entry. */
  lemma CostsAreLastLabels<T>(edges: seq<Edge>, period: T)
    ensures var t := LoadTask(edges, period);
      var mk := MaxHead(edges);
      && (forall x :: x in t.cDict <==> IsTail(edges, x) || x == mk)
      && t.cDict[mk] == 1.0
      && (forall x :: x in t.cDict && x != mk ==> t.cDict[x] == LastLabel(edges, x))
  {
  }

  /** C_array lists C_dict's costs, one per key, by ascending key, and W is
      their sum. */
  lemma CostArrayOrdered<T>(edges: seq<Edge>, period: T)
    ensures var t := LoadTask(edges, period);
      var keys := SortedSet(t.cDict.Keys);
      && |t.cArray| == |keys| == |t.cDict|
      && StrictlyIncreasing(keys)
      && (forall i :: 0 <= i < |keys| ==> t.cArray[i] == t.cDict[keys[i]])
      && t.w == Sum(t.cArray)
  {
  }

  /** The label of every edge positive: every cost positive, and so W. */
  lemma PositiveCosts<T>(edges: seq<Edge>, period: T)
    requires forall i :: 0 <= i < |edges| ==> edges[i].cost > 0.0
    ensures var t := LoadTask(edges, period);
      && (forall x :: x in t.cDict ==> t.cDict[x] > 0.0)
      && t.w > 0.0
  {
    var t := LoadTask(edges, period);
    forall x | x in t.cDict ensures t.cDict[x] > 0.0 {
      if x != MaxHead(edges) {
        LastLabelIsLabel(edges, x);
      }
    }
    var keys := SortedSet(t.cDict.Keys);
    assert MaxHead(edges) in keys;
    PositiveSum(t.cArray);
  }

  lemma {:induction false} LastLabelIsLabel(edges: seq<Edge>, x: int)
    requires IsTail(edges, x)
    ensures exists i :: 0 <= i < |edges| && edges[i].u == x && edges[i].cost == LastLabel(edges, x)
    decreases |edges|
  {
    var e := edges[|edges| - 1];
    if e.u != x {
      var p := edges[..|edges| - 1];
      TailOfPrefix(edges, x);
      LastLabelIsLabel(p, x);
      var i :| 0 <= i < |p| && p[i].u == x && p[i].cost == LastLabel(p, x);
      assert edges[i] == p[i];
    }
  }

  /** Without edges the task is the lone node 0 with cost 1. */
  lemma NoEdges<T>(period: T)
    ensures LoadTask([], period)
      == Task(map[0 := []], [], map[0 := 1.0], [1.0], period, 1.0)
  {
    var t := LoadTask([], period);
    assert SortedSet({}) == [];
    assert t.cDict == map[0 := 1.0];
    assert |SortedSet(t.cDict.Keys)| == 1;
    assert SortedSet(t.cDict.Keys)[0] in t.cDict.Keys;
    assert (set x: int | x in []) == {};
  }

  // Where the labels come from.

  /** The driver labels each edge (u, v) with the execution time of its
      tail, looked up in the dictionary of node costs; a tail without a
      cost is a KeyError. */
  function LabelEdges(pairs: seq<(int, int)>, c: map<int, real>): (r: Result<seq<Edge>>)
    ensures r.Ok? <==> forall i :: 0 <= i < |pairs| ==> pairs[i].0 in c
    ensures r.Ok? ==> |r.value| == |pairs|
    ensures r.Ok? ==> forall i :: 0 <= i < |pairs| ==>
      r.value[i].u == pairs[i].0 && r.value[i].v == pairs[i].1 && r.value[i].cost == c[pairs[i].0]
    ensures r.Err? ==> r.error == KeyError
  {
    if forall i :: 0 <= i < |pairs| ==> pairs[i].0 in c then
      Ok(seq(|pairs|, i requires 0 <= i < |pairs| && pairs[i].0 in c =>
        Edge(pairs[i].0, pairs[i].1, c[pairs[i].0])))
    else Err(KeyError)
  }

  /** Loading what the driver labelled gives back the node costs: every
      tail other than max_key costs what the driver's dictionary says. */
  lemma LabelledCostsRoundTrip<T>(pairs: seq<(int, int)>, c: map<int, real>, period: T)
    requires LabelEdges(pairs, c).Ok?
    ensures var edges := LabelEdges(pairs, c).value;
      var t := LoadTask(edges, period);
      forall x :: x in t.cDict && x != MaxHead(edges) ==> x in c && t.cDict[x] == c[x]
  {
    var edges := LabelEdges(pairs, c).value;
    var t := LoadTask(edges, period);
    forall x | x in t.cDict && x != MaxHead(edges) ensures x in c && t.cDict[x] == c[x] {
      CostsAreLastLabels(edges, period);
      LastLabelIsLabel(edges, x);
      var i :| 0 <= i < |edges| && edges[i].u == x && edges[i].cost == LastLabel(edges, x);
      assert edges[i] == Edge(pairs[i].0, pairs[i].1, c[pairs[i].0]);
    }
  }
}

=== FILE: oracle.dfy ===
/** The calls the generators make on Python's `random` module, with the
    pseudo-random generator replaced by the values it would hand out. */
module Oracle {
  import opened Wrappers

  /** The outcomes still to come, in call order: what random() returns and
      what randint() returns. The two kinds of call share one generator in
      Python; keeping them in two lists preserves the order within each kind,
      which is all the modelled code depends on. */
  datatype Rng = Rng(reals: seq<real>, ints: seq<int>)

  datatype Draw<T> = Draw(value: T, rest: Rng)

  /** random(): a real in [0, 1). An oracle that has run out, or whose next
      value lies outside that interval, is reported as BadOracle. */
  function Random(rng: Rng): (r: Result<Draw<real>>)
    ensures r.Ok? ==> 0.0 <= r.value.value < 1.0
    ensures r.Ok? ==> |r.value.rest.reals| == |rng.reals| - 1 && r.value.rest.ints == rng.ints
    ensures r.Err? ==> r.error == BadOracle
  {
    if |rng.reals| == 0 || !(0.0 <= rng.reals[0] < 1.0) then Err(BadOracle)
    else Ok(Draw(rng.reals[0], rng.(reals := rng.reals[1..])))
  }

  /** randint(lo, hi): an integer in the closed range [lo, hi]. Python raises
      ValueError when the range is empty. */
  function RandInt(lo: int, hi: int, rng: Rng): (r: Result<Draw<int>>)
    ensures r.Ok? ==> lo <= r.value.value <= hi
    ensures r.Ok? ==> |r.value.rest.ints| == |rng.ints| - 1 && r.value.rest.reals == rng.reals
    ensures lo > hi <==> r == Err(ValueError)
  {
    if lo > hi then Err(ValueError)
    else if |rng.ints| == 0 || !(lo <= rng.ints[0] <= hi) then Err(BadOracle)
    else Ok(Draw(rng.ints[0], rng.(ints := rng.ints[1..])))
  }
}

=== FILE: samplers.dfy ===
/** The task-parameter samplers: UUniFast, UUniFast-discard, period choice and
    the normalised split of a workload over n nodes.

    UUniFast raises a uniform variate to the power 1/(n-i) at step i. Real
    powers are not computable here, so each step's factor
    `random() ** (1/(n-i))` is an oracle value: a list of factors, consumed
    in order, each of which must lie in [0, 1]. */
module Samplers {
  import opened Wrappers
  import opened Seqs
  import opened Oracle

  /** Every factor a well-behaved power of a uniform variate can take. */
  predicate UnitFactors(fs: seq<real>)
  {
    forall i :: 0 <= i < |fs| ==> 0.0 <= fs[i] <= 1.0
  }

  /** The part of `s` kept for later steps when the factor is `f`. */
  function Scale(s: real, f: real): real
  {
    s * f
  }

  /** The classic UUniFast loop: with `s` left to hand out, the step keeps
      `s * f` for later and emits the difference; the last entry is what is
      left once the factors are used up. */
  function Split(s: real, fs: seq<real>): (r: seq<real>)
    ensures |r| == |fs| + 1
    decreases |fs|
  {
    if |fs| == 0 then [s] else [s - Scale(s, fs[0])] + Split(Scale(s, fs[0]), fs[1..])
  }

  /** The running `sumU` values of the loop: the amount still to distribute
      before each step, and after the last one. */
  function Remainders(s: real, fs: seq<real>): seq<real>
    decreases |fs|
  {
    if |fs| == 0 then [s] else [s] + Remainders(Scale(s, fs[0]), fs[1..])
  }

  lemma {:induction false} SplitLength(s: real, fs: seq<real>)
    ensures |Split(s, fs)| == |fs| + 1
    ensures |Remainders(s, fs)| == |fs| + 1
    decreases |fs|
  {
    if |fs| > 0 {
      SplitLength(Scale(s, fs[0]), fs[1..]);
    }
  }

  /** The split is exact: the entries add up to what there was to split,
      whatever the factors are (the sum telescopes). */
  lemma {:induction false} SplitSum(s: real, fs: seq<real>)
    ensures Sum(Split(s, fs)) == s
    decreases |fs|
  {
    if |fs| > 0 {
      SplitSum(Scale(s, fs[0]), fs[1..]);
      assert Split(s, fs)[1..] == Split(Scale(s, fs[0]), fs[1..]);
    }
  }

  /** Each entry is the drop between two consecutive remainders, and the
      last entry is the final remainder. */
  lemma {:induction false} SplitRemainders(s: real, fs: seq<real>)
    ensures |Split(s, fs)| == |Remainders(s, fs)| == |fs| + 1
    ensures Remainders(s, fs)[0] == s
    ensures forall i :: 0 <= i < |fs| ==>
      Split(s, fs)[i] == Remainders(s, fs)[i] - Remainders(s, fs)[i + 1]
    ensures Split(s, fs)[|fs|] == Remainders(s, fs)[|fs|]
    decreases |fs|
  {
    SplitLength(s, fs);
    if |fs| > 0 {
      var t := Scale(s, fs[0]);
      SplitRemainders(t, fs[1..]);
      assert Split(s, fs)[1..] == Split(t, fs[1..]);
      assert Remainders(s, fs)[1..] == Remainders(t, fs[1..]);
    }
  }

  /** With unit factors and a non-negative total the remainders never go
      negative, never exceed the total, and never increase. */
  lemma {:induction false} RemaindersShrink(s: real, fs: seq<real>)
    requires UnitFactors(fs) && s >= 0.0
    ensures |Remainders(s, fs)| == |fs| + 1
    ensures forall i :: 0 <= i < |fs| + 1 ==> 0.0 <= Remainders(s, fs)[i] <= s
    ensures forall i :: 0 <= i < |fs| ==> Remainders(s, fs)[i + 1] <= Remainders(s, fs)[i]
    decreases |fs|
  {
    SplitLength(s, fs);
    if |fs| > 0 {
      var t := Scale(s, fs[0]);
      MulUnit(s, fs[0]);
      assert UnitFactors(fs[1..]) by {
        forall i | 0 <= i < |fs[1..]| ensures 0.0 <= fs[1..][i] <= 1.0 {
          assert fs[1..][i] == fs[i + 1];
        }
      }
      RemaindersShrink(t, fs[1..]);
      var rem := Remainders(s, fs);
      var tail := Remainders(t, fs[1..]);
      assert rem == [s] + tail;
      forall i | 0 <= i < |fs| + 1 ensures 0.0 <= rem[i] <= s {
        if i > 0 {
          assert rem[i] == tail[i - 1];
          assert 0.0 <= tail[i - 1] <= t;
        } else {
          assert rem[i] == s;
        }
      }
      forall i | 0 <= i < |fs| ensures rem[i + 1] <= rem[i] {
        assert rem[i + 1] == tail[i];
        if i > 0 {
          assert rem[i] == tail[i - 1];
        }
      }
    }
  }

  lemma MulUnit(s: real, f: real)
    requires s >= 0.0 && 0.0 <= f <= 1.0
    ensures 0.0 <= Scale(s, f) <= s
  {
  }

  /** With unit factors and a non-negative total, every entry lies between 0
      and the total. */
  lemma SplitBounds(s: real, fs: seq<real>)
    requires UnitFactors(fs) && s >= 0.0
    ensures forall x :: x in Split(s, fs) ==> 0.0 <= x <= s
  {
    SplitRemainders(s, fs);
    RemaindersShrink(s, fs);
    var v := Split(s, fs);
    var rem := Remainders(s, fs);
    forall i | 0 <= i < |v| ensures 0.0 <= v[i] <= s {
      if i < |fs| {
        assert v[i] == rem[i] - rem[i + 1];
        assert 0.0 <= rem[i + 1] <= rem[i] <= s;
      } else {
        assert v[i] == rem[i];
      }
    }
  }

  /** The first `k` factors, or BadOracle when there are fewer or one of
      them is not a unit factor. */
  function TakeFactors(fs: seq<real>, k: nat): (r: Result<seq<real>>)
    ensures r.Ok? <==> k <= |fs| && UnitFactors(fs[..k])
    ensures r.Ok? ==> r.value == fs[..k]
    ensures r.Err? ==> r.error == BadOracle
  {
    if k <= |fs| && UnitFactors(fs[..k]) then Ok(fs[..k]) else Err(BadOracle)
  }

  /** uunifast(n, u): n utilisations that add up to u. For n <= 1 the loop
      body never runs and the result is [u]. */
  function UUniFast(n: int, u: real, fs: seq<real>): (r: Result<seq<real>>)
    ensures n <= 1 ==> r == Ok([u])
    ensures r.Ok? <==> Max0(n - 1) <= |fs| && UnitFactors(fs[..Max0(n - 1)])
    ensures r.Ok? ==> |r.value| == Max0(n - 1) + 1 && Sum(r.value) == u
    ensures r.Ok? && u >= 0.0 ==> forall x :: x in r.value ==> 0.0 <= x <= u
    ensures r.Err? ==> r.error == BadOracle
  {
    var f :- TakeFactors(fs, Max0(n - 1));
    SplitLength(u, f);
    SplitSum(u, f);
    if u >= 0.0 then SplitBounds(u, f); Ok(Split(u, f)) else Ok(Split(u, f))
  }

  predicate AtMostOne(v: seq<real>)
  {
    forall x :: x in v ==> x <= 1.0
  }

  /** What every vector uunifast_discard hands back satisfies. */
  predicate Accepted(n: int, u: real, v: seq<real>)
  {
    |v| == Max0(n - 1) + 1 && Sum(v) == u && AtMostOne(v)
    && (u >= 0.0 ==> forall x :: x in v ==> 0.0 <= x)
  }

  /** uunifast_discard(n, u, nsets): no vector when n <= u, since no split
      into n parts of at most 1 can then exist; otherwise UUniFast attempts
      are repeated, each on the next n-1 factors, and those with an entry
      above 1 thrown away, until nsets vectors are kept. */
  function UUniFastDiscard(n: int, u: real, nsets: int, fs: seq<real>): (r: Result<seq<seq<real>>>)
    ensures n as real <= u ==> r == Ok([])
    ensures r.Ok? && u < n as real ==> |r.value| == Max0(nsets)
    ensures r.Ok? ==> forall v :: v in r.value ==> Accepted(n, u, v)
    ensures r.Err? ==> r.error == BadOracle
  {
    if n as real <= u then Ok([]) else Attempts(n, u, nsets, fs, [])
  }

  /** The while loop: `sets` holds the vectors kept so far. The loop ends
      for lack of factors or once enough vectors are kept: each attempt uses
      n-1 factors, and for n <= 1 an attempt uses none but is always kept,
      because then u < n <= 1. */
  function Attempts(n: int, u: real, nsets: int, fs: seq<real>, sets: seq<seq<real>>): (r: Result<seq<seq<real>>>)
    requires u < n as real
    requires forall v :: v in sets ==> Accepted(n, u, v)
    requires |sets| <= Max0(nsets)
    ensures r.Ok? ==> |r.value| == Max0(nsets)
    ensures r.Ok? ==> forall v :: v in r.value ==> Accepted(n, u, v)
    ensures r.Ok? ==> sets <= r.value
    ensures r.Err? ==> r.error == BadOracle
    decreases |fs|, Max0(nsets) - |sets|
  {
    if |sets| >= nsets then Ok(sets)
    else
      var k := Max0(n - 1);
      match TakeFactors(fs, k)
      case Err(e) => Err(e)
      case Ok(f) =>
        var v := Split(u, f);
        SplitLength(u, f);
        SplitSum(u, f);
        if AtMostOne(v) then
          if u >= 0.0 then SplitBounds(u, f); Attempts(n, u, nsets, fs[k..], sets + [v])
          else Attempts(n, u, nsets, fs[k..], sets + [v])
        else
          KeptWhenNoFactors(n, u, f);
          Attempts(n, u, nsets, fs[k..], sets)
  }

  /** With no factor to use the attempt is [u], which is kept. */
  lemma KeptWhenNoFactors(n: int, u: real, f: seq<real>)
    requires u < n as real && |f| == Max0(n - 1)
    ensures !AtMostOne(Split(u, f)) ==> |f| > 0
  {
    if |f| == 0 {
      assert Split(u, f) == [u];
    }
  }

  /** random.choice(population): an element picked by the index the
      generator hands out; IndexError on an empty population. */
  function Choice<T>(population: seq<T>, rng: Rng): (r: Result<Draw<T>>)
    ensures |population| == 0 <==> r == Err(IndexError)
    ensures r.Ok? ==> r.value.value in population
    ensures r.Ok? ==> |r.value.rest.ints| == |rng.ints| - 1 && r.value.rest.reals == rng.reals
    ensures r.Err? && |population| > 0 ==> r.error == BadOracle
  {
    if |population| == 0 then Err(IndexError)
    else
      var d :- RandInt(0, |population| - 1, rng);
      Ok(Draw(population[d.value], d.rest))
  }

  /** gen_period(population, n): n independent choices from the population. */
  function GenPeriod<T>(population: seq<T>, n: int, rng: Rng): (r: Result<Draw<seq<T>>>)
    ensures n <= 0 ==> r == Ok(Draw([], rng))
    ensures n > 0 && |population| == 0 ==> r == Err(IndexError)
    ensures r.Ok? ==> |r.value.value| == Max0(n)
    ensures r.Ok? ==> forall p :: p in r.value.value ==> p in population
    ensures r.Ok? ==> |r.value.rest.ints| == |rng.ints| - Max0(n)
    ensures r.Err? && |population| > 0 ==> r.error == BadOracle
    decreases n
  {
    if n <= 0 then Ok(Draw([], rng))
    else
      var d :- Choice(population, rng);
      var ds :- GenPeriod(population, n - 1, d.rest);
      Ok(Draw([d.value] + ds.value, ds.rest))
  }

  /** The first n values of random(), in call order. */
  function Uniforms(n: int, rng: Rng): (r: Result<Draw<seq<real>>>)
    ensures r.Ok? <==> Max0(n) <= |rng.reals| && (forall i :: 0 <= i < Max0(n) ==> 0.0 <= rng.reals[i] < 1.0)
    ensures r.Ok? ==> r.value.value == rng.reals[..Max0(n)]
    ensures r.Ok? ==> r.value.rest == rng.(reals := rng.reals[Max0(n)..])
    ensures r.Err? ==> r.error == BadOracle
    decreases n
  {
    if n <= 0 then Ok(Draw([], rng))
    else
      var d :- Random(rng);
      var ds :- Uniforms(n - 1, d.rest);
      assert rng.reals[..Max0(n)] == [rng.reals[0]] + d.rest.reals[..Max0(n - 1)];
      Ok(Draw([d.value] + ds.value, ds.rest))
  }

  /** Python's float division: ZeroDivisionError for a zero divisor. */
  function Divide(a: real, b: real): (r: Result<real>)
    ensures b == 0.0 <==> r == Err(ZeroDivision)
    ensures r.Ok? ==> r.value * b == a
  {
    if b == 0.0 then Err(ZeroDivision) else Ok(a / b)
  }

  /** The dictionary built by the normalising loop: key i holds c[i] / f.
      The division fails only once the loop body runs. */
  function Normalise(c: seq<real>, f: real): (r: Result<map<int, real>>)
    ensures r.Ok? ==> forall i :: i in r.value <==> 0 <= i < |c|
    ensures r.Ok? ==> forall i :: 0 <= i < |c| ==> r.value[i] * f == c[i]
    ensures r.Err? <==> |c| > 0 && f == 0.0
    ensures r.Err? ==> r.error == ZeroDivision
  {
    if |c| > 0 && f == 0.0 then Err(ZeroDivision)
    else Ok(map i | 0 <= i < |c| :: c[i] / f)
  }

  /** The values of a dictionary keyed 0..n-1, in key order. */
  function Values(m: map<int, real>, n: nat): (r: seq<real>)
    requires forall i :: 0 <= i < n ==> i in m
    ensures |r| == n && forall i :: 0 <= i < n ==> r[i] == m[i]
  {
    if n == 0 then [] else Values(m, n - 1) + [m[n - 1]]
  }

  /** gen_execution_times(n, w): n draws of random(), rescaled so that they
      add up to w. The divisor `sum / w` is computed first, so w == 0 fails
      even for n <= 0; a zero sum only fails once there is a draw to
      divide. */
  function GenExecutionTimes(n: int, w: real, rng: Rng): (r: Result<map<int, real>>)
    ensures r.Ok? ==> forall i :: i in r.value <==> 0 <= i < n
    ensures w == 0.0 ==> r.Err?
    ensures r.Err? ==> r.error in {ZeroDivision, BadOracle}
  {
    var c :- Uniforms(n, rng);
    var f :- Divide(Sum(c.value), w);
    Normalise(c.value, f)
  }

  /** The draws gen_execution_times makes, when the oracle can supply them. */
  predicate DrawsAvailable(n: int, rng: Rng)
  {
    Max0(n) <= |rng.reals| && forall i :: 0 <= i < Max0(n) ==> 0.0 <= rng.reals[i] < 1.0
  }

  lemma ExecutionTimesUnfold(n: int, w: real, rng: Rng)
    requires DrawsAvailable(n, rng) && w != 0.0
    ensures GenExecutionTimes(n, w, rng)
      == Normalise(rng.reals[..Max0(n)], Sum(rng.reals[..Max0(n)]) / w)
  {
    var c := rng.reals[..Max0(n)];
    assert Divide(Sum(c), w) == Ok(Sum(c) / w);
  }

  /** gen_execution_times fails exactly when w == 0, or when there is at
      least one draw and all the draws are zero. */
  lemma ExecutionTimesFail(n: int, w: real, rng: Rng)
    requires DrawsAvailable(n, rng)
    ensures GenExecutionTimes(n, w, rng).Err? <==>
      w == 0.0 || (n > 0 && Sum(rng.reals[..Max0(n)]) == 0.0)
  {
    if w != 0.0 {
      ExecutionTimesUnfold(n, w, rng);
      var c := rng.reals[..Max0(n)];
      assert Sum(c) / w == 0.0 <==> Sum(c) == 0.0;
    }
  }

  /** Each draw divided by f, in order. */
  function Divided(c: seq<real>, f: real): (r: seq<real>)
    requires f != 0.0
    ensures |r| == |c| && forall i :: 0 <= i < |c| ==> r[i] == c[i] / f
  {
    if |c| == 0 then [] else [c[0] / f] + Divided(c[1..], f)
  }

  lemma DivAdd(a: real, b: real, f: real)
    requires f != 0.0
    ensures a / f + b / f == (a + b) / f
  {
  }

  /** Dividing every draw by f divides their sum by f. */
  lemma {:induction false} SumDivided(c: seq<real>, f: real)
    requires f != 0.0
    ensures Sum(Divided(c, f)) == Sum(c) / f
  {
    if |c| > 0 {
      SumDivided(c[1..], f);
      assert Divided(c, f)[1..] == Divided(c[1..], f);
      DivAdd(c[0], Sum(c[1..]), f);
    }
  }

  /** Dividing by total / w multiplies by w / total. */
  lemma DivideByRatio(y: real, x: real, total: real, w: real)
    requires total != 0.0 && w != 0.0 && y == x / (total / w)
    ensures y == x * w / total
  {
  }

  lemma RatioOfItself(total: real, w: real)
    requires total != 0.0 && w != 0.0
    ensures total / (total / w) == w
  {
  }

  /** Key i holds the draw c[i] times w over the total. */
  predicate Rescales(m: map<int, real>, c: seq<real>, w: real, total: real)
  {
    total != 0.0 && forall i :: 0 <= i < |c| ==> i in m && m[i] == c[i] * w / total
  }

  lemma NormaliseByRatio(c: seq<real>, w: real, total: real)
    requires w != 0.0 && total != 0.0
    ensures var r := Normalise(c, total / w);
      r.Ok? && Rescales(r.value, c, w, total)
  {
    var m := Normalise(c, total / w).value;
    forall i | 0 <= i < |c| ensures m[i] == c[i] * w / total {
      DivideByRatio(m[i], c[i], total, w);
    }
  }

  /** The rescaled draws add up to w. */
  lemma NormaliseSum(c: seq<real>, w: real)
    requires w != 0.0 && Sum(c) != 0.0
    ensures var r := Normalise(c, Sum(c) / w);
      r.Ok? && Sum(Values(r.value, |c|)) == w
  {
    var total := Sum(c);
    var f := total / w;
    var m := Normalise(c, f).value;
    assert Values(m, |c|) == Divided(c, f);
    SumDivided(c, f);
    RatioOfItself(total, w);
  }

  /** Each execution time is its draw times w over the sum of the draws. */
  lemma ExecutionTimesValues(n: int, w: real, rng: Rng)
    requires DrawsAvailable(n, rng)
    ensures var r := GenExecutionTimes(n, w, rng);
      var c := rng.reals[..Max0(n)];
      r.Ok? && n > 0 ==> Rescales(r.value, c, w, Sum(c))
  {
    var c := rng.reals[..Max0(n)];
    if GenExecutionTimes(n, w, rng).Ok? && n > 0 {
      ExecutionTimesFail(n, w, rng);
      ExecutionTimesUnfold(n, w, rng);
      var total := Sum(c);
      var r := GenExecutionTimes(n, w, rng);
      assert r == Normalise(c, total / w);
      NormaliseByRatio(c, w, total);
    }
  }

  /** For n >= 1 the execution times add up to the workload; for n <= 0 the
      dictionary is empty. */
  lemma ExecutionTimesSum(n: int, w: real, rng: Rng)
    requires DrawsAvailable(n, rng)
    ensures var r := GenExecutionTimes(n, w, rng);
      && (r.Ok? && n > 0 ==> Sum(Values(r.value, n)) == w)
      && (r.Ok? && n <= 0 ==> r.value == map[])
  {
    var c := rng.reals[..Max0(n)];
    if GenExecutionTimes(n, w, rng).Ok? && n > 0 {
      ExecutionTimesFail(n, w, rng);
      ExecutionTimesUnfold(n, w, rng);
      NormaliseSum(c, w);
    }
  }

  /** Positive draws and a positive workload give positive execution times. */
  lemma ExecutionTimesPositive(n: int, w: real, rng: Rng)
    requires DrawsAvailable(n, rng) && w > 0.0
    requires forall i :: 0 <= i < n ==> rng.reals[i] > 0.0
    ensures var r := GenExecutionTimes(n, w, rng);
      r.Ok? && forall i :: 0 <= i < n ==> r.value[i] > 0.0
  {
    var r := GenExecutionTimes(n, w, rng);
    var c := rng.reals[..Max0(n)];
    ExecutionTimesFail(n, w, rng);
    if n > 0 {
      PositiveSum(c);
      ExecutionTimesValues(n, w, rng);
      RescaledPositive(r.value, c, w, Sum(c));
    }
  }

  lemma RescaledPositive(m: map<int, real>, c: seq<real>, w: real, total: real)
    requires Rescales(m, c, w, total) && w > 0.0 && total > 0.0
    requires forall i :: 0 <= i < |c| ==> c[i] > 0.0
    ensures forall i :: 0 <= i < |c| ==> m[i] > 0.0
  {
    forall i | 0 <= i < |c| ensures m[i] > 0.0 {
      PositiveRatio(c[i], w, total);
    }
  }

  lemma PositiveRatio(c: real, w: real, total: real)
    requires c > 0.0 && w > 0.0 && total > 0.0
    ensures c * w / total > 0.0
  {
  }
}

=== FILE: seqs.dfy ===
/** Sequence and set helpers shared by the generators and the loader. */
module Seqs {

  /** Sum of a sequence of reals, as Python's sum(). This folds from the
      right, sum() from the left; over the reals the order is immaterial. */
  function Sum(s: seq<real>): real
  {
    if |s| == 0 then 0.0 else s[0] + Sum(s[1..])
  }

  lemma {:induction false} SumAppend(a: seq<real>, b: seq<real>)
    ensures Sum(a + b) == Sum(a) + Sum(b)
  {
    if |a| == 0 {
      assert a + b == b;
    } else {
      assert (a + b)[1..] == a[1..] + b;
      SumAppend(a[1..], b);
    }
  }

  /** A non-empty sum of positive reals is positive. */
  lemma {:induction false} PositiveSum(c: seq<real>)
    requires |c| > 0 && forall i :: 0 <= i < |c| ==> c[i] > 0.0
    ensures Sum(c) > 0.0
  {
    if |c| > 1 {
      PositiveSum(c[1..]);
    }
  }

  /** max(x, 0), the trip count of Python's `range(x)`. */
  function Max0(x: int): int
  {
    if x < 0 then 0 else x
  }

  /** No element occurs twice. */
  predicate Distinct<T(==)>(s: seq<T>)
  {
    forall i, j :: 0 <= i < j < |s| ==> s[i] != s[j]
  }

  predicate StrictlyIncreasing(s: seq<int>)
  {
    forall i, j :: 0 <= i < j < |s| ==> s[i] < s[j]
  }

  /** Python's list.remove(x): drops the first occurrence of x. Python raises
      ValueError when x is absent, so callers must show it is present. */
  function RemoveFirst<T(==)>(s: seq<T>, x: T): (r: seq<T>)
    requires x in s
    ensures |r| == |s| - 1
    ensures forall y :: y in r ==> y in s
    ensures forall y :: y in s && y != x ==> y in r
    ensures Distinct(s) ==> Distinct(r) && x !in r
  {
    if s[0] == x then
      assert forall i :: 0 < i < |s| ==> s[i] in s[1..];
      assert Distinct(s) ==> x !in s[1..];
      s[1..]
    else
      var t := RemoveFirst(s[1..], x);
      assert forall y :: y in s && y != s[0] ==> y in s[1..];
      assert Distinct(s) ==> s[0] !in s[1..];
      [s[0]] + t
  }

  /** The ascending sequence of the integers lo, lo+1, ..., hi-1. */
  function Iota(lo: int, hi: int): (r: seq<int>)
    decreases hi - lo
  {
    if hi <= lo then [] else [lo] + Iota(lo + 1, hi)
  }

  lemma {:induction false} IotaFacts(lo: int, hi: int)
    ensures |Iota(lo, hi)| == if hi <= lo then 0 else hi - lo
    ensures forall i :: 0 <= i < |Iota(lo, hi)| ==> Iota(lo, hi)[i] == lo + i
    decreases hi - lo
  {
    if lo < hi {
      IotaFacts(lo + 1, hi);
    }
  }

  lemma NonEmptyHasElement(s: set<int>)
    requires s != {}
    ensures exists y :: y in s
  {
    if forall y :: y !in s {
      assert false;
    }
  }

  lemma IotaAppend(a: int, b: int, c: int)
    requires a <= b <= c
    ensures Iota(a, b) + Iota(b, c) == Iota(a, c)
  {
    IotaFacts(a, b);
    IotaFacts(b, c);
    IotaFacts(a, c);
    var s := Iota(a, b) + Iota(b, c);
    assert |s| == |Iota(a, c)|;
    forall i | 0 <= i < |s|
      ensures s[i] == Iota(a, c)[i]
    {
      if i < b - a {
        assert s[i] == Iota(a, b)[i];
      } else {
        assert s[i] == Iota(b, c)[i - (b - a)];
      }
    }
  }

  lemma IotaMembers(lo: int, hi: int)
    ensures forall v :: v in Iota(lo, hi) <==> lo <= v < hi
  {
    IotaFacts(lo, hi);
    forall v | lo <= v < hi
      ensures v in Iota(lo, hi)
    {
      assert Iota(lo, hi)[v - lo] == v;
    }
  }

  /** A concatenation is duplicate-free exactly when both parts are and
      they share no element. */
  lemma DistinctConcat<T>(x: seq<T>, y: seq<T>)
    ensures Distinct(x + y) <==> Distinct(x) && Distinct(y) && (forall v :: v in x ==> v !in y)
  {
    var s := x + y;
    if Distinct(s) {
      forall i, j | 0 <= i < j < |x|
        ensures x[i] != x[j]
      {
        assert x[i] == s[i] && x[j] == s[j];
      }
      forall i, j | 0 <= i < j < |y|
        ensures y[i] != y[j]
      {
        assert y[i] == s[|x| + i] && y[j] == s[|x| + j];
      }
      forall i, j | 0 <= i < |x| && 0 <= j < |y|
        ensures x[i] != y[j]
      {
        assert x[i] == s[i] && y[j] == s[|x| + j];
      }
    }
    if Distinct(x) && Distinct(y) && (forall v :: v in x ==> v !in y) {
      forall i, j | 0 <= i < j < |s|
        ensures s[i] != s[j]
      {
        if j < |x| {
          assert s[i] == x[i] && s[j] == x[j];
        } else if i >= |x| {
          assert s[i] == y[i - |x|] && s[j] == y[j - |x|];
        } else {
          assert s[i] == x[i] && s[j] == y[j - |x|];
          assert x[i] in x && y[j - |x|] in y;
        }
      }
    }
  }

  /** Appending an element above all others keeps a list increasing. */
  lemma IncreasingSnoc(s: seq<int>, x: int)
    requires StrictlyIncreasing(s) && forall a :: a in s ==> a < x
    ensures StrictlyIncreasing(s + [x])
  {
    var t := s + [x];
    forall i, j | 0 <= i < j < |t|
      ensures t[i] < t[j]
    {
      if j == |s| {
        assert t[i] == s[i] && s[i] in s;
      } else {
        assert t[i] == s[i] && t[j] == s[j];
      }
    }
  }

  /** The concatenation of a list of lists, in order. */
  function Flatten<T>(ls: seq<seq<T>>): seq<T>
  {
    if |ls| == 0 then [] else Flatten(ls[..|ls| - 1]) + ls[|ls| - 1]
  }

  lemma FlattenSnoc<T>(ls: seq<seq<T>>, x: seq<T>)
    ensures Flatten(ls + [x]) == Flatten(ls) + x
  {
    assert (ls + [x])[..|ls|] == ls;
  }

  /** Every set of integers that is not empty has a least element. */
  lemma {:induction false} MinExists(s: set<int>)
    requires s != {}
    ensures exists m :: m in s && forall x :: x in s ==> m <= x
  {
    NonEmptyHasElement(s);
    var y :| y in s;
    if s != {y} {
      MinExists(s - {y});
      var m :| m in s - {y} && forall x :: x in s - {y} ==> m <= x;
      var k := if y < m then y else m;
      forall x | x in s ensures k <= x {
        if x != y {
          assert x in s - {y};
        }
      }
      assert k in s;
    } else {
      assert forall x :: x in s ==> y <= x;
    }
  }

  function Min(s: set<int>): (m: int)
    requires s != {}
    ensures m in s && forall x :: x in s ==> m <= x
  {
    MinExists(s);
    var m :| m in s && forall x :: x in s ==> m <= x;
    m
  }

  /** Python's sorted() of a finite set of integers (the keys of a dict, or
      the elements of a list without duplicates). */
  function SortedSet(s: set<int>): (r: seq<int>)
    ensures StrictlyIncreasing(r)
    ensures forall x :: x in r <==> x in s
    ensures |r| == |s|
    decreases |s|
  {
    if s == {} then []
    else
      var m := Min(s);
      var rest := SortedSet(s - {m});
      assert forall x :: x in rest ==> m < x;
      assert forall x :: x in s ==> x == m || x in s - {m};
      [m] + rest
  }

  lemma HeadIsMember<T>(s: seq<T>)
    ensures |s| > 0 ==> s[0] in s
  {
  }

  /** The suffix from j is its first element followed by the suffix from j+1. */
  lemma SuffixCons<T>(s: seq<T>, j: int)
    requires 0 <= j < |s|
    ensures s[j..] == [s[j]] + s[j + 1..]
    ensures s[j] in s && s[j] in s[j..]
    ensures forall x :: x in s[j..] <==> x == s[j] || x in s[j + 1..]
  {
  }

  lemma HeadIsLeast(s: seq<int>, x: int)
    requires StrictlyIncreasing(s) && x in s
    ensures s[0] <= x
  {
    var i :| 0 <= i < |s| && s[i] == x;
    assert i == 0 || s[0] < s[i];
  }

  /** A strictly increasing sequence is determined by its elements: sorting a
      duplicate-free list and enumerating its set in order give the same list. */
  lemma {:induction false} StrictlyIncreasingUnique(a: seq<int>, b: seq<int>)
    requires StrictlyIncreasing(a) && StrictlyIncreasing(b)
    requires forall x :: x in a <==> x in b
    ensures a == b
  {
    HeadIsMember(a);
    HeadIsMember(b);
    if |a| > 0 && |b| > 0 {
      HeadIsLeast(b, a[0]);
      HeadIsLeast(a, b[0]);
      TailOfIncreasing(a);
      TailOfIncreasing(b);
      StrictlyIncreasingUnique(a[1..], b[1..]);
      assert a == [a[0]] + a[1..] && b == [b[0]] + b[1..];
    }
  }

  /** Dropping the head of a strictly increasing sequence drops exactly its
      least element. */
  lemma TailOfIncreasing(s: seq<int>)
    requires StrictlyIncreasing(s) && |s| > 0
    ensures StrictlyIncreasing(s[1..])
    ensures forall x :: x in s[1..] <==> x in s && x != s[0]
  {
    forall x | x in s && x != s[0]
      ensures x in s[1..]
    {
      var j :| 0 <= j < |s| && s[j] == x;
      assert s[j] == s[1..][j - 1];
    }
  }

  /** The integers 1 .. n-1 form a set of n-1 elements. */
  lemma {:induction false} CountBelow(s: set<int>, n: int)
    requires n >= 1
    requires forall v :: v in s <==> 1 <= v < n
    ensures |s| == n - 1
    decreases n
  {
    if n == 1 {
      assert forall v :: v !in s;
      assert s == {};
    } else {
      assert n - 1 in s;
      CountBelow(s - {n - 1}, n - 1);
    }
  }

  /** Bounds on the length of a concatenation whose first part is a single
      element and whose other parts have between 1 and `width` elements. */
  lemma {:induction false} FlattenLength(ls: seq<seq<int>>, width: int)
    requires |ls| >= 1 && |ls[0]| == 1
    requires forall k :: 1 <= k < |ls| ==> 1 <= |ls[k]| <= width
    ensures |ls| <= |Flatten(ls)| <= (|ls| - 1) * width + 1
  {
    if |ls| > 1 {
      var init := ls[..|ls| - 1];
      FlattenLength(init, width);
      assert Flatten(ls) == Flatten(init) + ls[|ls| - 1];
    } else {
      assert ls[..0] == [];
    }
  }
}

=== FILE: uunifast_script.dfy ===
/** The stand-alone UUniFast script: the same split as the generator's
    uunifast, written as two loops, the second of which adds the
    utilisations up again and returns that total with the vector. */
module UUniFastScript {
  import opened Wrappers
  import opened Seqs
  import Samplers

  datatype Utilisations = Utilisations(allSum: real, vectU: seq<real>)

  /** uunifast(n, U) from the script. The i-th factor stands for
      `random.uniform(0, 1) ** (1 / (n - i))`; a missing factor, or one
      outside [0, 1], is BadOracle, as for the generator's version. */
  method UUniFast(n: int, u: real, fs: seq<real>) returns (r: Result<Utilisations>)
    ensures r.Ok? <==> Samplers.UUniFast(n, u, fs).Ok?
    ensures r.Ok? ==> r.value.vectU == Samplers.UUniFast(n, u, fs).value
    ensures r.Ok? ==> r.value.allSum == Sum(r.value.vectU) == u
    ensures r.Ok? && n >= 1 ==> |r.value.vectU| == n
    ensures r.Ok? && u >= 0.0 ==> forall x :: x in r.value.vectU ==> 0.0 <= x
    ensures r.Err? ==> r.error == BadOracle
  {
    var k := Max0(n - 1);
    if !(k <= |fs| && Samplers.UnitFactors(fs[..k])) {
      return Err(BadOracle);
    }
    var f := fs[..k];
    var vectU := SplitLoop(u, f);
    var allSum := SumLoop(vectU);
    Samplers.SplitSum(u, f);
    Samplers.SplitLength(u, f);
    if u >= 0.0 {
      Samplers.SplitBounds(u, f);
    }
    return Ok(Utilisations(allSum, vectU));
  }

  /** The first loop: each step hands out part of what is left and keeps the
      rest for the next; what is left at the end is the last entry. */
  method SplitLoop(u: real, f: seq<real>) returns (vectU: seq<real>)
    ensures vectU == Samplers.Split(u, f)
  {
    var sumU := u;
    vectU := [];
    var i := 0;
    while i < |f|
      invariant 0 <= i <= |f|
      invariant vectU + Samplers.Split(sumU, f[i..]) == Samplers.Split(u, f)
    {
      var nextSumU := Samplers.Scale(sumU, f[i]);
      assert f[i..][0] == f[i] && f[i..][1..] == f[i + 1..];
      assert Samplers.Split(sumU, f[i..])
        == [sumU - nextSumU] + Samplers.Split(nextSumU, f[i + 1..]);
      assert vectU + Samplers.Split(sumU, f[i..])
        == (vectU + [sumU - nextSumU]) + Samplers.Split(nextSumU, f[i + 1..]);
      vectU := vectU + [sumU - nextSumU];
      sumU := nextSumU;
      i := i + 1;
    }
    vectU := vectU + [sumU];
    assert f[|f|..] == [];
  }

  /** The second loop: AllSum accumulates the entries front to back. */
  method SumLoop(vectU: seq<real>) returns (allSum: real)
    ensures allSum == Sum(vectU)
  {
    allSum := 0.0;
    var j := 0;
    while j < |vectU|
      invariant 0 <= j <= |vectU|
      invariant allSum == Sum(vectU[..j])
    {
      assert vectU[..j + 1] == vectU[..j] + [vectU[j]];
      SumAppend(vectU[..j], [vectU[j]]);
      allSum := allSum + vectU[j];
      j := j + 1;
    }
    assert vectU[..j] == vectU;
  }
}

=== FILE: wrappers.dfy ===
/** Failure-compatible result type used by every operation whose Python
    counterpart can raise. */
module Wrappers {

  /** Errors the modelled Python code can raise, plus one for an oracle that
      does not supply what the code asks the random number generator for. */
  datatype Error =
    | ValueError       // random.randint with an empty range
    | ZeroDivision     // float division by zero
    | IndexError       // random.choice on an empty population
    | KeyError         // dictionary lookup of a missing key
    | BadOracle        // the draw sequence ran dry or left its range

  datatype Result<+T> = Ok(value: T) | Err(error: Error) {
    predicate IsFailure() {
      Err?
    }

    function PropagateFailure<U>(): Result<U>
      requires Err?
    {
      Err(error)
    }

    function Extract(): T
      requires Ok?
    {
      value
    }
  }

  datatype Option<+T> = None | Some(value: T)
}
